=== FILE: README.md ===
# Weather dashboard core, modelled in Dafny

This project models the core of an Angular dashboard. The dashboard tracks the
current weather and a five-day forecast for US postal codes. It shows one tab
per tracked code and keeps provider answers in a TTL cache held in the
browser's `localStorage`. The model covers:

- **Cache** (`cache_service.dfy`): the TTL cache. An entry's absolute expiry is
  fixed when it is written, and expiry is checked only when the entry is read.
  The configuration record is persisted. The clock is a parameter, `now`.
- **Locations** (`location_service.dfy`): the location registry. It holds the
  list of tracked codes behind a `BehaviorSubject`, persisted to storage. The
  values pushed to subscribers are kept as logs.
- **Validation** (`validation_service.dfy`): postal-code validation. The input
  is trimmed with ECMAScript `trim` (`text.dfy`) and must then be five digits.
- **Weather** (`weather_service.dfy`): the fetch client. It reads the cache
  first and writes successful answers through to it. The provider's answer is
  an input (`HttpReply`), and the requests issued are kept as a log.
- **Tabs** (`tabs_component.dfy`): the tab strip. The `tabs` input array is
  shared with the parent, so selection clears and sets flags in place on an
  `array<Tab>`.
- **Products** (`products_component.dfy`): the products demo page.
- **Dashboard** (`dashboard_component.dfy`): the dashboard that ties the parts
  together.

Supporting modules:

- `models.dfy` holds the data shapes.
- `storage.dfy` holds the key/value medium. `LocalStorage` stands for the
  browser's single `localStorage`. The cache and the registry each hold a
  reference to one, and the contracts hold whether or not they are given the
  same object. While `quotaExceeded` holds, every write fails and changes
  nothing.
- `seqs.dfy` holds `filter` and key-distinctness.
- `wrappers.dfy` holds `Option`.

A TTL of zero hours gives an entry whose expiry equals its timestamp:
`Cache.NewItem` states `expiresAt - timestamp == ttl`, so an entry expires
strictly after it was written exactly when the TTL is positive.

## Model

Source paths are relative to the repository root.

| member | source | states |
|---|---|---|
| Seqs.Filter | src/app/core/services/location.service.ts:68 | `filter` keeps exactly the elements satisfying the predicate and never grows the list |
| Seqs.FilterShrinks | src/app/core/services/location.service.ts:68-70 | the filtered list is shorter exactly when some element fails the predicate; otherwise it is the same list |
| Seqs.FilterAppend | src/app/core/services/location.service.ts:68 | filtering distributes over concatenation, so survivors keep their order |
| Seqs.FilterKeepsKeysDistinct | src/app/core/services/location.service.ts:68 | filtering a list with pairwise-distinct keys leaves the keys pairwise distinct |
| Text.Trim | src/app/core/services/validation.service.ts:22 | `trim` is never longer than its input (the shape of the result is stated by the lemmas below) |
| Text.TrimStartShape | src/app/core/services/validation.service.ts:22 | what the leading trim keeps is a suffix not starting with whitespace, and all it drops is whitespace |
| Text.TrimEndShape | src/app/core/services/validation.service.ts:22 | what the trailing trim keeps is a prefix not ending with whitespace, and all it drops is whitespace |
| Text.TrimIsTrimmed | src/app/core/services/validation.service.ts:22 | the result of `trim` neither starts nor ends with whitespace |
| Text.TrimOf | src/app/core/services/validation.service.ts:22 | `trim` of any whitespace + t + whitespace, with t trimmed, is exactly t |
| Text.TrimIdempotent | src/app/features/dashboard/dashboard.component.ts:97-100 | trimming the already-trimmed input again changes nothing |
| Text.IndexOf | src/app/features/dashboard/dashboard.component.ts:190 | the index of the first occurrence of the pattern, or -1 exactly when it does not occur |
| Text.RemoveFirst | src/app/features/dashboard/dashboard.component.ts:190 | `replace` with a string pattern removes only its first occurrence and leaves a string without a match unchanged |
| Text.RemoveLeadingPattern | src/app/features/dashboard/dashboard.component.ts:190 | removing a pattern from a string it starts with gives back what followed it |
| Storage.LocalStorage.GetItem | src/app/core/services/cache.service.ts:57 | `getItem` is the stored value, or nothing for a key never written |
| Storage.LocalStorage.SetItem | src/app/core/services/cache.service.ts:39-46 | `setItem` stores the value, or throws (reported as false) and changes nothing when the quota is exceeded |
| Storage.LocalStorage.RemoveItem | src/app/core/services/cache.service.ts:85 | `removeItem` deletes that key only |
| Storage.Written | src/app/core/services/cache.service.ts:39-46 | a write that may fail: it changes at most its own key and sets it unless the quota is exceeded |
| Cache.EntryKeyInjective | src/app/core/services/cache.service.ts:41 | distinct entry names never share a prefixed storage key |
| Cache.EntryKeyIsNotConfigKey | src/app/core/services/cache.service.ts:13-14 | no entry's storage key is the configuration key |
| Cache.NewItem | src/app/core/services/cache.service.ts:31-37 | the written record holds the data and key, is stamped `now` and expires exactly `ttl` later |
| Cache.MissingEntryReadsAsNull | src/app/core/services/cache.service.ts:57-61 | a missing entry reads as null and the read changes nothing |
| Cache.UnreadableEntryReadsAsNull | src/app/core/services/cache.service.ts:63-76 | a stored value that does not parse as an entry reads as null and is left in place |
| Cache.LookupTouchesOnlyItsKey | src/app/core/services/cache.service.ts:54-77 | a read deletes at most its own key |
| Cache.ReadsAtOneInstantCommute | src/app/core/services/cache.service.ts:54-77 | a read never changes what another read at the same instant returns |
| Cache.WriteLeavesOtherEntries | src/app/core/services/cache.service.ts:29-47 | a write leaves every other entry's answer as it was, and commutes with reads of other entries |
| Cache.WrittenEntryServedUntilExpiry | src/app/core/services/cache.service.ts:29-77 | an entry is served unchanged up to and including its expiry instant, and the read leaves storage unchanged |
| Cache.WrittenEntryEvictedAfterExpiry | src/app/core/services/cache.service.ts:66-70 | read after its expiry, the entry is deleted and null is returned |
| Cache.SetThenGetRoundTrip | src/app/core/services/cache.service.ts:29-77 | with a non-negative TTL, a read at the instant of the write returns the written data |
| Cache.SavedConfigReloads | src/app/core/services/cache.service.ts:111-134 | the configuration that was saved is the one loaded back |
| Cache.CacheService.constructor | src/app/core/services/cache.service.ts:16-22 | starts from the two-hour default, then adopts a readable saved configuration |
| Cache.CacheService.Set | src/app/core/services/cache.service.ts:29-47 | writes the new record under the prefixed key; a failed write leaves storage unchanged |
| Cache.CacheService.Get | src/app/core/services/cache.service.ts:54-77 | returns the data of a live entry and null otherwise; an expired entry is deleted |
| Cache.CacheService.Remove | src/app/core/services/cache.service.ts:83-89 | deletes only the prefixed key |
| Cache.CacheService.GetTTLInHours | src/app/core/services/cache.service.ts:95-97 | the TTL in hours: times the milliseconds per hour, it gives the TTL back |
| Cache.CacheService.SetTTLInHours | src/app/core/services/cache.service.ts:103-106 | the new TTL reads back as the given hours and is persisted; entries already written keep their expiry |
| Cache.CacheService.SaveConfig | src/app/core/services/cache.service.ts:111-120 | persists the configuration under its key, swallowing a failed write |
| Cache.CacheService.LoadConfig | src/app/core/services/cache.service.ts:125-134 | adopts a readable saved configuration and keeps the current one otherwise |
| Validation.ValidateZipCode | src/app/core/services/validation.service.ts:21-41 | valid exactly when the trimmed input is five digits, and exactly when there is no message; gives the empty message for blank input and the format message otherwise |
| Validation.ValidationIgnoresSurroundingWhitespace | src/app/core/services/validation.service.ts:21-22 | an input validates exactly as its trimmed form does |
| Validation.ValidationOfPaddedInput | src/app/core/services/validation.service.ts:21-41 | five digits surrounded by any whitespace are valid |
| Validation.ValidZipIsItsOwnTrim | src/app/core/services/validation.service.ts:33 | five digits are their own trim |
| Locations.HasZip | src/app/core/services/location.service.ts:88-90 | `some`: true exactly when some location has that code |
| Locations.FindByZip | src/app/core/services/location.service.ts:98-100 | `find`: the first location with that code, and none exactly when no location has it |
| Locations.WithoutZip | src/app/core/services/location.service.ts:66-68 | `filter` by code: never longer, and keeps only listed locations with another code |
| Locations.WithoutZipContents | src/app/core/services/location.service.ts:66-68 | removal keeps exactly the locations with another code, and none with the removed one |
| Locations.RemovalShrinksIffPresent | src/app/core/services/location.service.ts:66-70 | the removal flag holds exactly when the code was present; an absent code changes nothing |
| Locations.RemovalKeepsOrder | src/app/core/services/location.service.ts:68 | removal keeps the survivors in their order |
| Locations.RemovalKeepsZipsDistinct | src/app/core/services/location.service.ts:66-80 | removal keeps codes pairwise distinct |
| Locations.AppendKeepsZipsDistinct | src/app/core/services/location.service.ts:39-58 | appending an absent code keeps codes pairwise distinct |
| Locations.SavedLocationsReload | src/app/core/services/location.service.ts:114-145 | the list that was saved is the one loaded back |
| Locations.Delivered | src/app/core/services/location.service.ts:17-20 | publishing a list appends it to every subscriber's log and to nothing else |
| Locations.LocationService.constructor | src/app/core/services/location.service.ts:17-24 | starts empty, then publishes a readable stored list, if any |
| Locations.LocationService.GetLocations | src/app/core/services/location.service.ts:29-31 | an element-wise copy of the current list |
| Locations.LocationService.LocationExists | src/app/core/services/location.service.ts:87-91 | true exactly when some location's code equals the trimmed argument |
| Locations.LocationService.GetLocation | src/app/core/services/location.service.ts:97-101 | the first location with exactly the untrimmed code, and none exactly when no location has it |
| Locations.LocationService.Subscribe | src/app/core/services/location.service.ts:17-20 | a new subscriber receives the current list at once |
| Locations.LocationService.Next | src/app/core/services/location.service.ts:17-20 | replaces the list and delivers it to every subscriber |
| Locations.LocationService.AddLocation | src/app/core/services/location.service.ts:39-59 | refuses a tracked (trimmed) code with no effect; otherwise appends the trimmed location, publishes and persists; keeps codes distinct |
| Locations.LocationService.RemoveLocation | src/app/core/services/location.service.ts:66-81 | drops every location with that code; publishes and persists only when one was dropped; keeps codes distinct |
| Locations.LocationService.ClearAll | src/app/core/services/location.service.ts:106-109 | always empties the list, publishes and persists |
| Locations.LocationService.SaveLocations | src/app/core/services/location.service.ts:114-123 | writes the whole list under its key, swallowing a failed write |
| Locations.LocationService.LoadLocations | src/app/core/services/location.service.ts:128-145 | publishes a readable stored list; a missing or unreadable one changes nothing |
| Weather.CacheKeysDistinct | src/app/core/services/weather.service.ts:38-80 | current and forecast keys never collide, and each names one code |
| Weather.CurrentOutcome | src/app/core/services/weather.service.ts:55-70 | a transport error is passed on; a non-empty answer yields its first record; an empty or missing list is the not-found error |
| Weather.ForecastOutcome | src/app/core/services/weather.service.ts:98-113 | as for current conditions, yielding the whole non-empty list of days |
| Weather.Joined | src/app/core/services/weather.service.ts:137-152 | both records when both fetches succeed, otherwise a failure carrying one of their errors |
| Weather.CurrentReadKeepsForecast | src/app/core/services/weather.service.ts:126-127 | reading a code's current conditions never changes its cached forecast |
| Weather.CurrentFetchKeepsForecasts | src/app/core/services/weather.service.ts:139-140 | the whole current-conditions fetch, including its read and write-through, leaves every code's cached forecast as it was before the fetch |
| Weather.FetchedCurrentIsServedFromCache | src/app/core/services/weather.service.ts:36-71 | after a successful write-through, a read at the same instant is a hit returning the fetched record |
| Weather.FetchedForecastIsServedFromCache | src/app/core/services/weather.service.ts:78-114 | the same for the forecast |
| Weather.GetWeatherIconUrl | src/app/core/services/weather.service.ts:159-161 | the provider's base address, then the code, then `.png` |
| Weather.IconUrlInjective | src/app/core/services/weather.service.ts:159-161 | different icon codes give different addresses |
| Weather.WeatherService.constructor | src/app/core/services/weather.service.ts:26-29 | uses the given cache and has issued no request |
| Weather.CurrentFetchKeepsOtherCurrent | src/app/core/services/weather.service.ts:36-71 | a current-conditions fetch for one code, with its read and write-through, leaves every other code's cached conditions as they were; a failed fetch leaves its own code's as well |
| Weather.WeatherService.GetCurrentWeather | src/app/core/services/weather.service.ts:36-71 | a hit returns the cached record and issues no request; a miss issues one request with the code and `US`, caches a fetched record and caches nothing on failure |
| Weather.WeatherService.GetForecast | src/app/core/services/weather.service.ts:78-114 | the same for the forecast, with `days` 5 |
| Weather.WeatherService.GetCompleteWeather | src/app/core/services/weather.service.ts:121-153 | both cached: both returned, no request. Otherwise both fetches run, only the missing parts are requested, and the outcomes are joined |
| Tabs.WithoutTab | src/app/features/dashboard/dashboard.component.ts:196 | keeps exactly the tabs with another id |
| Tabs.IndexOfTab | src/app/shared/components/tabs/tabs.component.ts:76 | `findIndex`: the first tab with that id, or -1 exactly when there is none |
| Tabs.FirstActive | src/app/shared/components/tabs/tabs.component.ts:45 | the first flagged tab, or -1 exactly when none is flagged |
| Tabs.Selected | src/app/shared/components/tabs/tabs.component.ts:55-66 | only flags change, at most one tab is flagged, and a tab is flagged exactly when it is the first with that id |
| Tabs.NeighbourToSelect | src/app/shared/components/tabs/tabs.component.ts:76-84 | a neighbour is chosen exactly when the closed tab was active and others remain: the previous tab, or the second when the first closes |
| Tabs.SelectingAnIdActivatesItsTab | src/app/shared/components/tabs/tabs.component.ts:55-66 | with distinct ids, selecting tab n's id leaves exactly tab n active |
| Tabs.CloseSelectsNeighbour | src/app/shared/components/tabs/tabs.component.ts:73-88 | with distinct ids, closing the active tab of a strip with two or more tabs leaves exactly the neighbour active |
| Tabs.InitialTabId | src/app/shared/components/tabs/tabs.component.ts:38 | the id of the first flagged tab, or of the first tab when none is flagged |
| Tabs.InitActivatesFirstFlaggedTab | src/app/shared/components/tabs/tabs.component.ts:35-41 | with distinct ids, on init exactly the first flagged tab, or else the first tab, ends up active |
| Tabs.IndexOfTabIgnoresActive | src/app/shared/components/tabs/tabs.component.ts:57-60 | clearing flags does not change which tab `find` returns |
| Tabs.TabsComponent.constructor | src/app/shared/components/tabs/tabs.component.ts:17-26 | binds the parent's array, with no active id and no events |
| Tabs.TabsComponent.SelectTab | src/app/shared/components/tabs/tabs.component.ts:55-66 | the array becomes `Selected`; a known id becomes active and is emitted, and an unknown id emits nothing |
| Tabs.TabsComponent.CloseTab | src/app/shared/components/tabs/tabs.component.ts:73-88 | selects the neighbour when required, leaves the tab in place and always emits the closed id |
| Tabs.TabsComponent.IsActive | src/app/shared/components/tabs/tabs.component.ts:94-96 | true exactly for the active id |
| Tabs.TabsComponent.NgOnInit | src/app/shared/components/tabs/tabs.component.ts:35-41 | a non-empty strip selects the first flagged tab or the first tab; an empty strip changes nothing |
| Tabs.TabsComponent.NgOnChanges | src/app/shared/components/tabs/tabs.component.ts:43-49 | adopts the first flagged tab's id, and keeps the old one when none is flagged |
| Products.TabIds | src/app/features/products/products.component.ts:41 | the ids of the tabs, in order |
| Products.FirstAvailable | src/app/features/products/products.component.ts:42 | the first catalogue product not open, or -1 exactly when all are open |
| Products.AnyAvailable | src/app/features/products/products.component.ts:70 | true exactly when some catalogue product is not open |
| Products.FindProduct | src/app/features/products/products.component.ts:79 | `find` by id: the first product with that id, or none exactly when there is none |
| Products.OpenTabsBounded | src/app/features/products/products.component.ts:40-64 | while the invariant holds, no more tabs are open than there are products |
| Products.ClosingFreesProduct | src/app/features/products/products.component.ts:66-76 | after a catalogue product's tab is closed, some product is available again |
| Products.ProductsComponent.constructor | src/app/features/products/products.component.ts:36-38 | opens with the first product's tab, active, and that product shown |
| Products.ProductsComponent.AddProductTab | src/app/features/products/products.component.ts:40-64 | appends the first unopened product's tab (active only as the first tab), or sets the message and disables when none is left; keeps the invariant |
| Products.ProductsComponent.OnTabClosed | src/app/features/products/products.component.ts:66-76 | drops the tab; re-enables and clears the message when a product is available; keeps the invariant |
| Products.ProductsComponent.GetProductById | src/app/features/products/products.component.ts:78-80 | the catalogue product with that id, and none exactly for ids outside the catalogue |
| Dashboard.TabId | src/app/features/dashboard/dashboard.component.ts:148 | the id is `tab_` followed by the code |
| Dashboard.TabTitle | src/app/features/dashboard/dashboard.component.ts:150-154 | the city name, or `N/A` when it is empty, followed by the code in parentheses |
| Dashboard.NewTab | src/app/features/dashboard/dashboard.component.ts:148-156 | the tab of a code has its id and title, is closable, and is active exactly when it is the first tab |
| Dashboard.TabsFor | src/app/features/dashboard/dashboard.component.ts:85-91 | one new tab per saved location, in order, and only the first of a previously empty list is active |
| Dashboard.TabIdInjective | src/app/features/dashboard/dashboard.component.ts:148 | two tab ids are equal exactly when their codes are |
| Dashboard.RestoredTabsWellFormed | src/app/features/dashboard/dashboard.component.ts:85-91 | tabs restored from a list with distinct codes have distinct ids and at most one active tab |
| Dashboard.ZipOfTabIdRoundTrip | src/app/features/dashboard/dashboard.component.ts:147-190 | the code read back from a tab id is the code the id was built from |
| Dashboard.ZipOfTab | src/app/features/dashboard/dashboard.component.ts:190 | `replace('tab_', '')`: an id starting with `tab_` gives the rest, and an id without `tab_` is kept whole |
| Dashboard.WeatherForTab | src/app/features/dashboard/dashboard.component.ts:209-212 | the weather entry of the code the tab id stands for, if loaded |
| Dashboard.WeatherForTabOfZip | src/app/features/dashboard/dashboard.component.ts:209-212 | a code's tab shows exactly that code's weather entry |
| Dashboard.ClosingLocationTabForgetsItsZip | src/app/features/dashboard/dashboard.component.ts:188-203 | closing the tab built for a code removes exactly that code from the registry and the weather entries |
| Dashboard.DashboardComponent.constructor | src/app/features/dashboard/dashboard.component.ts:44-53 | starts with no tabs or entries and shows the cache's TTL in hours |
| Dashboard.DashboardComponent.GetWeatherForTab | src/app/features/dashboard/dashboard.component.ts:209-212 | the entry of the code the tab id stands for, and none exactly when it is not loaded |
| Dashboard.DashboardComponent.GetWeatherIcon | src/app/features/dashboard/dashboard.component.ts:233-235 | the service's icon address: the provider's base address, then the code, then `.png` |
| Dashboard.DashboardComponent.LoadSavedLocations | src/app/features/dashboard/dashboard.component.ts:85-91 | one tab per registered location, in order; weather entries are only added, only for registered codes, and existing entries keep their values; a registered code that had no entry has one exactly when fetching it against the cache as the restore found it succeeds, and it holds the fetched conditions |
| Dashboard.DashboardComponent.NgOnInit | src/app/features/dashboard/dashboard.component.ts:58-71 | restores the tabs, then subscribes to the registry and receives its current list; a registered code that had no weather entry has one exactly when fetching it against the starting cache succeeds, holding the fetched conditions; existing weather entries, the input, the loading flag, the message, the TTL and the registry's published lists are unchanged |
| Dashboard.DashboardComponent.LoadWeatherForTab | src/app/features/dashboard/dashboard.component.ts:170-182 | stores the fetched conditions under the code, and a failure leaves the entries alone; the cache ends as that fetch leaves it, the quota flag is unchanged, and the request log grows by the fetch's request (none on a cache hit) |
| Dashboard.DashboardComponent.AddTabForLocation | src/app/features/dashboard/dashboard.component.ts:147-164 | appends the code's tab (active only as the first), and loads its weather only when it is not loaded; then the cache and the request log change as that fetch leaves them, and otherwise neither changes; the quota flag is unchanged |
| Dashboard.DashboardComponent.AddLocation | src/app/features/dashboard/dashboard.component.ts:96-140 | invalid input gives the validation message and a tracked code the duplicate message, both with no fetch and no registry change. A fetch registers the code, publishes the new list, adds its tab and weather and clears the input; a failure gives the error message and publishes nothing, the cache and the request log end as the failed fetch leaves them, and a separate registry storage is unchanged |
| Dashboard.DashboardComponent.ShowFetched | src/app/features/dashboard/dashboard.component.ts:117-133 | the success branch: registers the location and publishes the new list, appends the tab, stores the weather and ends loading |
| Dashboard.DashboardComponent.ShowTab | src/app/features/dashboard/dashboard.component.ts:121-132 | appends the location's tab, stores the fetched weather over whatever the tab loaded, clears the input and ends loading; the cache and the request log are unchanged when the code was already loaded, and otherwise end as the tab's own fetch leaves them; the quota flag is unchanged |
| Dashboard.RestoreStepKeepsInvariant | src/app/features/dashboard/dashboard.component.ts:88-90 | one restored location keeps the restore's invariant: entries only added, codes without an entry read from the cache as at the start, and each restored code not loaded at first holds what fetching it against the starting cache gives |
| Dashboard.RestoreComplete | src/app/features/dashboard/dashboard.component.ts:85-91 | once every saved location is restored, the invariant gives exactly the promises of `loadSavedLocations` over the registered codes |
| Dashboard.DashboardComponent.RestoreAll | src/app/features/dashboard/dashboard.component.ts:88-90 | the `forEach` over the saved locations appends their tabs in order and ends with the restore's invariant over all their codes |
| Dashboard.DashboardComponent.RestoreLocation | src/app/features/dashboard/dashboard.component.ts:89 | one iteration appends the location's tab and keeps the restore's invariant with its code added |
| Dashboard.DashboardComponent.OnTabClosed | src/app/features/dashboard/dashboard.component.ts:188-203 | removes the code from the registry, publishing the shortened list exactly when the code was tracked, drops it from the weather entries, and drops the tab |

## Left out

- Text.Trim: its own contract only bounds the length; what it keeps and drops is stated by `TrimStartShape`, `TrimEndShape` and `TrimIsTrimmed`, so that callers do not carry quantified facts about whitespace.
- HTTP goes through `HttpClient` and the asynchronous delivery of observables. Each fetch is an `HttpReply` parameter. The reply is applied as soon as the fetch is made, so interleavings of answers arriving out of order are not modelled.
- Weather.WeatherService.GetCompleteWeather: when both fetches fail, it reports the current-conditions error. The source reports whichever promise rejects first, which depends on timing.
- JSON serialisation is abstracted. A storage slot holds one of the records the core writes, or `Unparsable` text. A record that parses but has the wrong shape counts as unreadable. Examples: a cache entry without `expiresAt`, or a configuration without `ttl`. JavaScript would carry on with `undefined` fields in those cases.
- A cache payload of the wrong kind under a weather key (a forecast under a `current_` key) is read as a miss. The source would return it unchecked. Such a payload cannot arise through the modelled operations.
- `Date` values are milliseconds as `int`. The clock is a parameter, `now`. Weather numbers are `real`. Floating-point rounding is not modelled.
- Cache.CacheService.SetTTLInHours: takes whole, non-negative hours. Fractional or negative hours, which the number input allows, are not modelled, because the TTL is an integer of milliseconds.
- Cache.CacheService.GetTTLInHours: gives the exact quotient. The source gives its floating-point value.
- The dashboard's `updateCacheTTL()` hands the input's number to `setTTLInHours`. Because only whole hours are modelled, it is not modelled.
- Reads and removals of `localStorage` are taken never to throw. Only writes can fail (the quota case).
- Console logging is left out: the `console.log` and `console.error` calls on every error path.
- `viewDetails()` only navigates, and the router is not part of this model.
- The weather-detail component, the header and the route table are outside the core.
- Dashboard.DashboardComponent.AddLocation: after a successful fetch the contract does not state the cache, the quota flag, the request log or the registry's storage. The fetch's write-through and request are stated by `WeatherService.GetCurrentWeather`, and the saved list by `LocationService.AddLocation`. They are not composed here, because the registry's storage may or may not be the cache's object, and the tab's own fetch then reads whatever both writes left.
- Dashboard.DashboardComponent.ShowFetched: states neither the cache, the quota flag, the request log nor the registry's storage, for the same reason. The saved list is stated by `LocationService.AddLocation`, and the tab's fetch by `ShowTab` and `WeatherService.GetCurrentWeather`.
- Dashboard.DashboardComponent: `ngOnDestroy()` only unsubscribes. The registry's subscriber log has no unsubscription, so it is not modelled.
- Scrolling of the tab strip is left out: `ngAfterViewInit`, `ngAfterViewChecked`, `updateScrollButtons`, `scrollLeft`, `scrollRight` and `onScroll` are DOM measurements.
- The parent components hold their tab lists as immutable values. The tab strip's array stands for the same `Tab` objects. The aliasing between them, where the strip's flag writes show up in the parent's list, is not modelled.
- The dashboard uses the cache of its weather service, not a separately injected `CacheService`. The two are the same singleton.
- The `Tab` interface's own file is not part of this model. Its shape (id, title, active, closable) is taken from its uses.

=== FILE: cache_service.dfy ===
/**
 * The TTL cache (src/app/core/services/cache.service.ts): entries live in
 * localStorage under a `weather_cache_` prefix, each with an absolute expiry
 * fixed when it is written; expiry is checked only when an entry is read.
 */
module Cache {
  import opened Wrappers
  import opened Models
  import opened Storage

  const CACHE_PREFIX: string := "weather_cache_"
  const CONFIG_KEY: string := "cache_config"
  const MS_PER_HOUR: int := 60 * 60 * 1000
  /** Two hours, in milliseconds. */
  const DEFAULT_TTL: int := 2 * 60 * 60 * 1000

  /** The localStorage key of the cache entry named `key`. */
  function EntryKey(key: string): string
  {
    CACHE_PREFIX + key
  }

  /** Distinct entry names never share a storage key. */
  lemma EntryKeyInjective(a: string, b: string)
    ensures EntryKey(a) == EntryKey(b) ==> a == b
  {
    if EntryKey(a) == EntryKey(b) {
      assert a == EntryKey(a)[|CACHE_PREFIX|..];
      assert b == EntryKey(b)[|CACHE_PREFIX|..];
    }
  }

  /** The prefix keeps cache entries apart from the configuration record. */
  lemma EntryKeyIsNotConfigKey(key: string)
    ensures EntryKey(key) != CONFIG_KEY
  {
    assert EntryKey(key)[0] == 'w' != CONFIG_KEY[0];
  }

  /** The entry `set(key, data)` writes at time `now` under TTL `ttl`. */
  function NewItem(key: string, data: Payload, now: int, ttl: int): (item: CacheItem)
    ensures item.expiresAt - item.timestamp == ttl
    ensures item.data == data && item.key == key && item.timestamp == now
  {
    CacheItem(data, now, now + ttl, key)
  }

  /** The storage after `set(key, data)` at time `now` under TTL `ttl`; unchanged if the write fails. */
  function AfterSet(items: map<string, Stored>, quotaExceeded: bool, key: string, data: Payload,
                    now: int, ttl: int): map<string, Stored>
  {
    Written(items, quotaExceeded, EntryKey(key), CacheRecord(NewItem(key, data, now, ttl)))
  }

  /**
   * What `get(key)` returns at time `now`: nothing for a missing or
   * unreadable entry, nothing once `now` is past the expiry, the data otherwise.
   */
  function Lookup(items: map<string, Stored>, key: string, now: int): Option<Payload>
  {
    var k := EntryKey(key);
    if k !in items then None
    else match items[k]
      case CacheRecord(item) => if now > item.expiresAt then None else Some(item.data)
      case _ => None
  }

  /** The storage after `get(key)` at time `now`: an expired entry is deleted. */
  function AfterLookup(items: map<string, Stored>, key: string, now: int): map<string, Stored>
  {
    var k := EntryKey(key);
    if k in items && items[k].CacheRecord? && now > items[k].item.expiresAt then items - {k} else items
  }

  /** The configuration `loadConfig` ends with, starting from `current`. */
  function LoadedConfig(items: map<string, Stored>, current: CacheConfig): CacheConfig
  {
    if CONFIG_KEY in items && items[CONFIG_KEY].ConfigRecord? then items[CONFIG_KEY].config else current
  }

  /** A key never written reads as null and the read changes nothing. */
  lemma MissingEntryReadsAsNull(items: map<string, Stored>, key: string, now: int)
    requires EntryKey(key) !in items
    ensures Lookup(items, key, now) == None && AfterLookup(items, key, now) == items
  {
  }

  /** A stored value that does not parse as an entry reads as null and is left in place. */
  lemma UnreadableEntryReadsAsNull(items: map<string, Stored>, key: string, now: int)
    requires EntryKey(key) in items && !items[EntryKey(key)].CacheRecord?
    ensures Lookup(items, key, now) == None && AfterLookup(items, key, now) == items
  {
  }

  /** A read touches no key but its own. */
  lemma LookupTouchesOnlyItsKey(items: map<string, Stored>, key: string, now: int, other: string)
    requires other != EntryKey(key)
    ensures other in AfterLookup(items, key, now) <==> other in items
    ensures other in items ==> AfterLookup(items, key, now)[other] == items[other]
  {
  }

  /** Two reads at the same instant: the first never changes what the second finds. */
  lemma ReadsAtOneInstantCommute(items: map<string, Stored>, key: string, other: string, now: int)
    ensures Lookup(AfterLookup(items, key, now), other, now) == Lookup(items, other, now)
  {
    if EntryKey(other) != EntryKey(key) {
      LookupTouchesOnlyItsKey(items, key, now, EntryKey(other));
    }
  }

  /** Writing one entry leaves what every other entry reads as. */
  lemma WriteLeavesOtherEntries(items: map<string, Stored>, quotaExceeded: bool, key: string, data: Payload,
                                now: int, ttl: int, other: string, later: int)
    requires EntryKey(other) != EntryKey(key)
    ensures Lookup(AfterSet(items, quotaExceeded, key, data, now, ttl), other, later) == Lookup(items, other, later)
    ensures AfterLookup(AfterSet(items, quotaExceeded, key, data, now, ttl), other, later)
         == AfterSet(AfterLookup(items, other, later), quotaExceeded, key, data, now, ttl)
  {
  }

  /**
   * An entry written at `written` under TTL `ttl` is served unchanged up to
   * and including its expiry and the read leaves the storage as it was.
   */
  lemma WrittenEntryServedUntilExpiry(items: map<string, Stored>, key: string, data: Payload,
                                      written: int, ttl: int, now: int)
    requires now <= written + ttl
    ensures var stored := items[EntryKey(key) := CacheRecord(NewItem(key, data, written, ttl))];
      Lookup(stored, key, now) == Some(data) && AfterLookup(stored, key, now) == stored
  {
  }

  /** Read after its expiry, the entry is deleted and null is returned. */
  lemma WrittenEntryEvictedAfterExpiry(items: map<string, Stored>, key: string, data: Payload,
                                       written: int, ttl: int, now: int)
    requires now > written + ttl
    ensures var stored := items[EntryKey(key) := CacheRecord(NewItem(key, data, written, ttl))];
      Lookup(stored, key, now) == None && AfterLookup(stored, key, now) == stored - {EntryKey(key)}
  {
  }

  /** With a non-negative TTL, a read at the instant of the write returns the data. */
  lemma SetThenGetRoundTrip(items: map<string, Stored>, key: string, data: Payload, now: int, ttl: int)
    requires ttl >= 0
    ensures Lookup(items[EntryKey(key) := CacheRecord(NewItem(key, data, now, ttl))], key, now) == Some(data)
  {
    WrittenEntryServedUntilExpiry(items, key, data, now, ttl, now);
  }

  /** A saved configuration is the one loaded back. */
  lemma SavedConfigReloads(items: map<string, Stored>, saved: CacheConfig, current: CacheConfig)
    ensures LoadedConfig(Written(items, false, CONFIG_KEY, ConfigRecord(saved)), current) == saved
  {
  }

  class CacheService {
    const store: LocalStorage
    var config: CacheConfig

    /** Starts from the two-hour default and then loads a saved configuration, if any. */
    constructor (store: LocalStorage)
      ensures this.store == store
      ensures config == LoadedConfig(store.items, CacheConfig(DEFAULT_TTL))
    {
      this.store := store;
      config := CacheConfig(DEFAULT_TTL);
      new;
      LoadConfig();
    }

    /**
     * `set(key, data)` at time `now`: writes the entry with expiry `now + ttl`
     * under the prefixed key; a failed write leaves the storage as it was.
     */
    method Set(key: string, data: Payload, now: int)
      modifies store
      ensures store.quotaExceeded == old(store.quotaExceeded)
      ensures store.items == AfterSet(old(store.items), old(store.quotaExceeded), key, data, now, config.ttl)
    {
      var item := CacheItem(data, now, now + config.ttl, key);
      var written := store.SetItem(EntryKey(key), CacheRecord(item));
    }

    /** `get(key)` at time `now`, with lazy expiry. */
    method Get(key: string, now: int) returns (r: Option<Payload>)
      modifies store
      ensures r == Lookup(old(store.items), key, now)
      ensures store.items == AfterLookup(old(store.items), key, now)
      ensures store.quotaExceeded == old(store.quotaExceeded)
    {
      var cached := store.GetItem(EntryKey(key));
      if cached.None? {
        return None;
      }
      match cached.value
      case CacheRecord(item) =>
        if now > item.expiresAt {
          Remove(key);
          return None;
        }
        return Some(item.data);
      case _ =>
        // the text did not parse as an entry: logged and read as null
        return None;
    }

    /** `remove(key)`: deletes the prefixed key, if present, and nothing else. */
    method Remove(key: string)
      modifies store
      ensures store.items == old(store.items) - {EntryKey(key)}
      ensures store.quotaExceeded == old(store.quotaExceeded)
    {
      store.RemoveItem(EntryKey(key));
    }

    /** `getTTLInHours()`: the TTL expressed in hours. */
    function GetTTLInHours(): (hours: real)
      reads this
      ensures hours * MS_PER_HOUR as real == config.ttl as real
    {
      config.ttl as real / MS_PER_HOUR as real
    }

    /**
     * `setTTLInHours(hours)`: later writes use the new TTL; entries already
     * stored keep the expiry they were written with.
     */
    method SetTTLInHours(hours: nat)
      modifies this, store
      ensures config == CacheConfig(hours * MS_PER_HOUR)
      ensures GetTTLInHours() == hours as real
      ensures store.quotaExceeded == old(store.quotaExceeded)
      ensures store.items == Written(old(store.items), old(store.quotaExceeded), CONFIG_KEY, ConfigRecord(config))
      ensures forall k | k in old(store.items) && k != CONFIG_KEY :: k in store.items && store.items[k] == old(store.items)[k]
    {
      config := CacheConfig(hours * MS_PER_HOUR);
      SaveConfig();
    }

    /** `saveConfig()`: persists the configuration; a failed write is swallowed. */
    method SaveConfig()
      modifies store
      ensures store.quotaExceeded == old(store.quotaExceeded)
      ensures store.items == Written(old(store.items), old(store.quotaExceeded), CONFIG_KEY, ConfigRecord(config))
    {
      var written := store.SetItem(CONFIG_KEY, ConfigRecord(config));
    }

    /** `loadConfig()`: adopts a saved configuration; a missing or unreadable one changes nothing. */
    method LoadConfig()
      modifies this
      ensures config == LoadedConfig(store.items, old(config))
    {
      var saved := store.GetItem(CONFIG_KEY);
      if saved.Some? && saved.value.ConfigRecord? {
        config := saved.value.config;
      }
    }
  }
}

=== FILE: dashboard_component.dfy ===
/**
 * The dashboard (src/app/features/dashboard/dashboard.component.ts): one tab
 * per tracked postal code, with the current conditions of each. Provider
 * answers are inputs and are applied as soon as they are given.
 */
module Dashboard {
  import opened Wrappers
  import opened Models
  import opened Text
  import opened Validation
  import opened Locations
  import opened Weather
  import opened Tabs
  import opened Seqs
  import opened Storage

  const TAB_PREFIX: string := "tab_"
  const NO_CITY: string := "N/A"
  const DUPLICATE_LOCATION: string := "Esta ubicación ya está agregada."
  const FETCH_FAILED: string := "Código postal inválido o error de conexión"

  /** The id of the tab of postal code `zip`. */
  function TabId(zip: string): (id: string)
    ensures |id| == |TAB_PREFIX| + |zip|
    ensures id[..|TAB_PREFIX|] == TAB_PREFIX && id[|TAB_PREFIX|..] == zip
  {
    TAB_PREFIX + zip
  }

  /** The title of that tab: the city, or "N/A" when it is empty, then the code in parentheses. */
  function TabTitle(zip: string, city: string): (t: string)
    ensures |t| > |zip| + 3
    ensures t[..|t| - |zip| - 3] == if city == "" then NO_CITY else city
    ensures t[|t| - |zip| - 3..] == " (" + zip + ")"
  {
    (if city == "" then NO_CITY else city) + " (" + zip + ")"
  }

  /** The tab `addTabForLocation(zip, city)` appends; it is active when it is the first. */
  function NewTab(zip: string, city: string, first: bool): (t: Tab)
    ensures t.id == TabId(zip)
    ensures t.title == TabTitle(zip, city)
    ensures t.active == first && t.closable
  {
    Tab(TabId(zip), TabTitle(zip, city), first, true)
  }

  /** The tabs `loadSavedLocations()` appends for `ls`, in order; only the first can be active. */
  function TabsFor(ls: seq<Location>, startEmpty: bool): (r: seq<Tab>)
    ensures |r| == |ls|
    ensures forall i | 0 <= i < |ls| :: r[i] == NewTab(ls[i].zipCode, ls[i].name, startEmpty && i == 0)
  {
    seq(|ls|, i requires 0 <= i < |ls| => NewTab(ls[i].zipCode, ls[i].name, startEmpty && i == 0))
  }

  /** Restoring one more saved location appends exactly its tab. */
  lemma TabsForNext(ls: seq<Location>, i: nat, startEmpty: bool)
    requires i < |ls|
    ensures TabsFor(ls[..i + 1], startEmpty)
         == TabsFor(ls[..i], startEmpty) + [NewTab(ls[i].zipCode, ls[i].name, startEmpty && i == 0)]
  {
    assert ls[..i + 1][i] == ls[i];
  }

  /** Distinct codes give distinct tab ids. */
  lemma TabIdInjective(a: string, b: string)
    ensures TabId(a) == TabId(b) <==> a == b
  {
    if TabId(a) == TabId(b) {
      assert a == TabId(a)[|TAB_PREFIX|..] && b == TabId(b)[|TAB_PREFIX|..];
    }
  }

  /**
   * The tabs restored from a saved list whose codes are distinct have
   * distinct ids, and at most one of them is active.
   */
  lemma RestoredTabsWellFormed(ls: seq<Location>, startEmpty: bool)
    requires DistinctZips(ls)
    ensures KeysDistinct(TabsFor(ls, startEmpty), IdOf)
    ensures AtMostOneActive(TabsFor(ls, startEmpty))
  {
    var r := TabsFor(ls, startEmpty);
    forall i, j | 0 <= i < j < |r| ensures IdOf(r[i]) != IdOf(r[j]) {
      assert ZipOf(ls[i]) != ZipOf(ls[j]);
      TabIdInjective(ls[i].zipCode, ls[j].zipCode);
    }
  }

  /** `tabId.replace('tab_', '')`: the postal code a tab id stands for. */
  function ZipOfTab(tabId: string): (zip: string)
    ensures IndexOf(tabId, TAB_PREFIX) == -1 ==> zip == tabId
    ensures |tabId| >= |TAB_PREFIX| && tabId[..|TAB_PREFIX|] == TAB_PREFIX ==> zip == tabId[|TAB_PREFIX|..]
  {
    if |tabId| >= |TAB_PREFIX| && tabId[..|TAB_PREFIX|] == TAB_PREFIX then
      assert tabId == TAB_PREFIX + tabId[|TAB_PREFIX|..];
      RemoveLeadingPattern(TAB_PREFIX, tabId[|TAB_PREFIX|..]);
      RemoveFirst(tabId, TAB_PREFIX)
    else
      RemoveFirst(tabId, TAB_PREFIX)
  }

  /** The code is recovered from the id built for it. */
  lemma ZipOfTabIdRoundTrip(zip: string)
    ensures ZipOfTab(TabId(zip)) == zip
  {
    RemoveLeadingPattern(TAB_PREFIX, zip);
  }

  /** `weatherData.get(ZipOfTab(tabId))`. */
  function WeatherForTab(weatherData: map<string, CurrentWeather>, tabId: string): (r: Option<CurrentWeather>)
    ensures r.Some? <==> ZipOfTab(tabId) in weatherData
    ensures r.Some? ==> r.value == weatherData[ZipOfTab(tabId)]
  {
    var zip := ZipOfTab(tabId);
    if zip in weatherData then Some(weatherData[zip]) else None
  }

  /** The tab of a postal code shows that code's weather entry. */
  lemma WeatherForTabOfZip(weatherData: map<string, CurrentWeather>, zip: string)
    ensures WeatherForTab(weatherData, TabId(zip)) == if zip in weatherData then Some(weatherData[zip]) else None
  {
    ZipOfTabIdRoundTrip(zip);
  }

  /**
   * The weather entry of a code that had none is what fetching it against the
   * storage `start`, answered by `replyFor(zip)`, gives: present exactly when
   * that fetch succeeds, and then holding the fetched conditions.
   */
  ghost predicate LoadedAsFetched(start: map<string, Stored>, weatherData: map<string, CurrentWeather>, zip: string,
                                  now: int, replyFor: string -> HttpReply<CurrentWeatherResponse>)
  {
    var r := CurrentWeatherResult(start, zip, now, replyFor(zip));
    (zip in weatherData <==> r.Fetched?) && (r.Fetched? ==> weatherData[zip] == r.value)
  }

  /** The codes of the first `i` saved locations. */
  ghost function ZipsOf(ls: seq<Location>, i: nat): set<string>
    requires i <= |ls|
  {
    set k | 0 <= k < i :: ls[k].zipCode
  }

  /** One more restored location adds its code. */
  lemma ZipsOfNext(ls: seq<Location>, i: nat)
    requires i < |ls|
    ensures ZipsOf(ls, i + 1) == ZipsOf(ls, i) + {ls[i].zipCode}
  {
  }

  /** All the saved locations give exactly the registered codes. */
  lemma ZipsOfAll(ls: seq<Location>)
    ensures forall z :: z in ZipsOf(ls, |ls|) <==> HasZip(ls, z)
  {
  }

  /**
   * The restore's invariant, over the cache `start` it began with and the
   * weather `initial` already loaded then, once the locations with codes
   * `seen` are restored: entries are only added, and only for `seen`; every
   * code without an entry still reads from `items` as from `start`; every
   * code of `seen` not loaded at first holds what fetching it against
   * `start` gives.
   */
  ghost predicate RestoreInvariant(start: map<string, Stored>, initial: map<string, CurrentWeather>, seen: set<string>,
                                   shown: map<string, CurrentWeather>, items: map<string, Stored>, now: int,
                                   replyFor: string -> HttpReply<CurrentWeatherResponse>)
  {
    && (forall z | z in initial :: z in shown && shown[z] == initial[z])
    && (forall z | z in shown :: z in initial || z in seen)
    && (forall z {:trigger CachedCurrent(items, z, now)} | z !in shown :: CachedCurrent(items, z, now) == CachedCurrent(start, z, now))
    && (forall z {:trigger LoadedAsFetched(start, shown, z, now, replyFor)} | z in seen && z !in initial ::
          LoadedAsFetched(start, shown, z, now, replyFor))
  }

  /**
   * One step of the restore keeps its invariant: `addTabForLocation(zip)`
   * leaves the weather and the cache alone when `zip` has an entry, and
   * otherwise fetches it (`shown'`, `items'`).
   */
  lemma RestoreStepKeepsInvariant(start: map<string, Stored>, initial: map<string, CurrentWeather>, seen: set<string>,
                                  shown: map<string, CurrentWeather>, items: map<string, Stored>,
                                  shown': map<string, CurrentWeather>, items': map<string, Stored>,
                                  quotaExceeded: bool, ttl: int, zip: string, now: int,
                                  replyFor: string -> HttpReply<CurrentWeatherResponse>)
    requires RestoreInvariant(start, initial, seen, shown, items, now, replyFor)
    requires zip in shown ==> shown' == shown && items' == items
    requires zip !in shown ==>
      var r := CurrentWeatherResult(items, zip, now, replyFor(zip));
      && shown' == (if r.Fetched? then shown[zip := r.value] else shown)
      && items' == AfterCurrentFetch(items, quotaExceeded, ttl, zip, now, replyFor(zip))
    ensures RestoreInvariant(start, initial, seen + {zip}, shown', items', now, replyFor)
  {
    if zip !in shown {
      var r := CurrentWeatherResult(items, zip, now, replyFor(zip));
      assert r == CurrentWeatherResult(start, zip, now, replyFor(zip));
      forall z | z !in shown'
        ensures CachedCurrent(items', z, now) == CachedCurrent(start, z, now)
      {
        CurrentFetchKeepsOtherCurrent(items, quotaExceeded, ttl, zip, now, replyFor(zip), z);
      }
      forall z | z in seen + {zip} && z !in initial
        ensures LoadedAsFetched(start, shown', z, now, replyFor)
      {
        if z != zip {
          assert LoadedAsFetched(start, shown, z, now, replyFor);
        }
      }
    }
  }

  /** Once every saved location is restored, the invariant gives what `loadSavedLocations` promises. */
  lemma RestoreComplete(start: map<string, Stored>, initial: map<string, CurrentWeather>, ls: seq<Location>,
                        shown: map<string, CurrentWeather>, items: map<string, Stored>, now: int,
                        replyFor: string -> HttpReply<CurrentWeatherResponse>)
    requires RestoreInvariant(start, initial, ZipsOf(ls, |ls|), shown, items, now, replyFor)
    ensures initial.Keys <= shown.Keys
    ensures forall z | z in shown :: z in initial || HasZip(ls, z)
    ensures forall z | z in initial :: shown[z] == initial[z]
    ensures forall z | HasZip(ls, z) && z !in initial :: LoadedAsFetched(start, shown, z, now, replyFor)
  {
    ZipsOfAll(ls);
  }

  class DashboardComponent {
    const registry: LocationService
    const weather: WeatherService
    var newZipCode: string
    var isLoading: bool
    var errorMessage: string
    var tabs: seq<Tab>
    var weatherData: map<string, CurrentWeather>
    var cacheTTL: real

    /** Starts empty and shows the cache's TTL in hours. */
    constructor (registry: LocationService, weather: WeatherService)
      ensures this.registry == registry && this.weather == weather
      ensures newZipCode == "" && !isLoading && errorMessage == ""
      ensures tabs == [] && weatherData == map[]
      ensures cacheTTL == weather.cache.GetTTLInHours()
    {
      this.registry := registry;
      this.weather := weather;
      newZipCode := "";
      isLoading := false;
      errorMessage := "";
      tabs := [];
      weatherData := map[];
      cacheTTL := weather.cache.GetTTLInHours();
    }

    /** `getWeatherForTab(tabId)`. */
    function GetWeatherForTab(tabId: string): (r: Option<CurrentWeather>)
      reads this
      ensures r.Some? <==> ZipOfTab(tabId) in weatherData
      ensures r.Some? ==> r.value == weatherData[ZipOfTab(tabId)]
    {
      WeatherForTab(weatherData, tabId)
    }

    /** `getWeatherIcon(iconCode)`: delegates to the weather service. */
    function GetWeatherIcon(iconCode: string): (url: string)
      ensures url == GetWeatherIconUrl(iconCode)
      ensures url[..|ICON_BASE_URL|] == ICON_BASE_URL && url[|url| - |ICON_SUFFIX|..] == ICON_SUFFIX
      ensures url[|ICON_BASE_URL|..|url| - |ICON_SUFFIX|] == iconCode
    {
      GetWeatherIconUrl(iconCode)
    }

    /**
     * `loadSavedLocations()`: a tab for every registered location, in order,
     * each loading its weather when not yet loaded (`replyFor(zip)` answers
     * the fetch for `zip`). Weather entries are only ever added, and only
     * for registered codes; a registered code that had none holds what
     * fetching it against the cache as the restore found it gives, since
     * loading one code leaves every other code's cached conditions alone.
     */
    method LoadSavedLocations(now: int, replyFor: string -> HttpReply<CurrentWeatherResponse>)
      modifies this, weather, weather.cache.store
      ensures tabs == old(tabs) + TabsFor(old(registry.locations), old(tabs) == [])
      ensures old(weatherData).Keys <= weatherData.Keys
      ensures forall z | z in weatherData :: z in old(weatherData) || HasZip(old(registry.locations), z)
      ensures forall z | z in old(weatherData) :: weatherData[z] == old(weatherData)[z]
      ensures forall z | HasZip(old(registry.locations), z) && z !in old(weatherData) ::
        LoadedAsFetched(old(weather.cache.store.items), weatherData, z, now, replyFor)
      ensures newZipCode == old(newZipCode) && isLoading == old(isLoading)
      ensures errorMessage == old(errorMessage) && cacheTTL == old(cacheTTL)
    {
      var locations := registry.GetLocations();
      assert locations == registry.locations;
      ghost var start, initial := weather.cache.store.items, weatherData;
      RestoreAll(locations, now, replyFor, start, initial);
      RestoreComplete(start, initial, locations, weatherData, weather.cache.store.items, now, replyFor);
    }

    /** The loop of `loadSavedLocations()`: `addTabForLocation` for each of `ls` in turn. */
    method RestoreAll(ls: seq<Location>, now: int, replyFor: string -> HttpReply<CurrentWeatherResponse>,
                      ghost start: map<string, Stored>, ghost initial: map<string, CurrentWeather>)
      modifies this, weather, weather.cache.store
      requires RestoreInvariant(start, initial, ZipsOf(ls, 0), weatherData, weather.cache.store.items, now, replyFor)
      ensures tabs == old(tabs) + TabsFor(ls, old(tabs) == [])
      ensures RestoreInvariant(start, initial, ZipsOf(ls, |ls|), weatherData, weather.cache.store.items, now, replyFor)
      ensures newZipCode == old(newZipCode) && isLoading == old(isLoading)
      ensures errorMessage == old(errorMessage) && cacheTTL == old(cacheTTL)
    {
      var i := 0;
      while i < |ls|
        invariant 0 <= i <= |ls|
        invariant tabs == old(tabs) + TabsFor(ls[..i], old(tabs) == [])
        invariant RestoreInvariant(start, initial, ZipsOf(ls, i), weatherData, weather.cache.store.items, now, replyFor)
        invariant newZipCode == old(newZipCode) && isLoading == old(isLoading)
        invariant errorMessage == old(errorMessage) && cacheTTL == old(cacheTTL)
      {
        TabsForNext(ls, i, old(tabs) == []);
        ZipsOfNext(ls, i);
        RestoreLocation(ls[i], now, replyFor, start, initial, ZipsOf(ls, i));
        i := i + 1;
      }
      assert ls[..i] == ls;
    }

    /**
     * One iteration of the restore: `addTabForLocation` for a saved
     * location, keeping the restore's invariant. `start` is the cache as the
     * restore found it, `initial` the weather loaded before it began and
     * `seen` the codes of the locations already restored.
     */
    method RestoreLocation(l: Location, now: int, replyFor: string -> HttpReply<CurrentWeatherResponse>,
                           ghost start: map<string, Stored>, ghost initial: map<string, CurrentWeather>, ghost seen: set<string>)
      modifies this, weather, weather.cache.store
      requires RestoreInvariant(start, initial, seen, weatherData, weather.cache.store.items, now, replyFor)
      ensures tabs == old(tabs) + [NewTab(l.zipCode, l.name, old(tabs) == [])]
      ensures RestoreInvariant(start, initial, seen + {l.zipCode}, weatherData, weather.cache.store.items, now, replyFor)
      ensures weather.cache.store.quotaExceeded == old(weather.cache.store.quotaExceeded)
      ensures newZipCode == old(newZipCode) && isLoading == old(isLoading)
      ensures errorMessage == old(errorMessage) && cacheTTL == old(cacheTTL)
    {
      ghost var shown, items := weatherData, weather.cache.store.items;
      AddTabForLocation(l.zipCode, l.name, now, replyFor(l.zipCode));
      RestoreStepKeepsInvariant(start, initial, seen, shown, items, weatherData, weather.cache.store.items,
                                old(weather.cache.store.quotaExceeded), weather.cache.config.ttl, l.zipCode, now, replyFor);
    }

    /** `ngOnInit()`: restores the saved tabs, then subscribes to the registry. */
    method NgOnInit(now: int, replyFor: string -> HttpReply<CurrentWeatherResponse>)
      modifies this, registry, weather, weather.cache.store
      ensures tabs == old(tabs) + TabsFor(old(registry.locations), old(tabs) == [])
      ensures registry.locations == old(registry.locations)
      ensures registry.received == old(registry.received) + [[registry.locations]]
      ensures old(weatherData).Keys <= weatherData.Keys
      ensures forall z | z in weatherData :: z in old(weatherData) || HasZip(old(registry.locations), z)
      ensures forall z | z in old(weatherData) :: weatherData[z] == old(weatherData)[z]
      ensures forall z | HasZip(old(registry.locations), z) && z !in old(weatherData) ::
        LoadedAsFetched(old(weather.cache.store.items), weatherData, z, now, replyFor)
      ensures registry.emitted == old(registry.emitted)
      ensures newZipCode == old(newZipCode) && isLoading == old(isLoading)
      ensures errorMessage == old(errorMessage) && cacheTTL == old(cacheTTL)
    {
      LoadSavedLocations(now, replyFor);
      registry.Subscribe();
    }

    /** `loadWeatherForTab(zip)`: stores the fetched conditions; a failure is only logged. */
    method LoadWeatherForTab(zip: string, now: int, reply: HttpReply<CurrentWeatherResponse>)
      modifies this, weather, weather.cache.store
      ensures var r := CurrentWeatherResult(old(weather.cache.store.items), zip, now, reply);
        weatherData == if r.Fetched? then old(weatherData)[zip := r.value] else old(weatherData)
      ensures weather.cache.store.quotaExceeded == old(weather.cache.store.quotaExceeded)
      ensures weather.cache.store.items == AfterCurrentFetch(old(weather.cache.store.items), old(weather.cache.store.quotaExceeded),
                                                             weather.cache.config.ttl, zip, now, reply)
      ensures weather.requests == old(weather.requests) + CurrentRequests(old(weather.cache.store.items), zip, now)
      ensures tabs == old(tabs) && newZipCode == old(newZipCode) && isLoading == old(isLoading)
      ensures errorMessage == old(errorMessage) && cacheTTL == old(cacheTTL)
    {
      var r := weather.GetCurrentWeather(zip, now, reply);
      if r.Fetched? {
        weatherData := weatherData[zip := r.value];
      }
    }

    /**
     * `addTabForLocation(zip, city)`: appends the location's tab and, when
     * its weather is not loaded yet, loads it (`reply` is the provider's
     * answer should the cache miss).
     */
    method AddTabForLocation(zip: string, city: string, now: int, reply: HttpReply<CurrentWeatherResponse>)
      modifies this, weather, weather.cache.store
      ensures tabs == old(tabs) + [NewTab(zip, city, old(tabs) == [])]
      ensures zip in old(weatherData) ==>
        weatherData == old(weatherData) && weather.requests == old(weather.requests)
        && weather.cache.store.items == old(weather.cache.store.items)
      ensures zip !in old(weatherData) ==>
        var r := CurrentWeatherResult(old(weather.cache.store.items), zip, now, reply);
        weatherData == if r.Fetched? then old(weatherData)[zip := r.value] else old(weatherData)
      ensures zip !in old(weatherData) ==>
        && weather.cache.store.items == AfterCurrentFetch(old(weather.cache.store.items), old(weather.cache.store.quotaExceeded),
                                                          weather.cache.config.ttl, zip, now, reply)
        && weather.requests == old(weather.requests) + CurrentRequests(old(weather.cache.store.items), zip, now)
      ensures weather.cache.store.quotaExceeded == old(weather.cache.store.quotaExceeded)
      ensures newZipCode == old(newZipCode) && isLoading == old(isLoading)
      ensures errorMessage == old(errorMessage) && cacheTTL == old(cacheTTL)
    {
      tabs := tabs + [NewTab(zip, city, |tabs| == 0)];
      if zip !in weatherData {
        LoadWeatherForTab(zip, now, reply);
      }
    }

    /**
     * `addLocation()` with the fetch answered by `reply` at time `now`: an
     * invalid code only sets the validation message; a tracked code only sets
     * the duplicate message and fetches nothing; otherwise a successful fetch
     * registers the location, appends its tab, stores its weather and clears
     * the input, and a failed one sets the error message. Loading ends either way.
     */
    method AddLocation(now: int, reply: HttpReply<CurrentWeatherResponse>)
      modifies this, registry, registry.store, weather, weather.cache.store
      ensures cacheTTL == old(cacheTTL)
      ensures var zip := Trim(old(newZipCode));
              var v := ValidateZipCode(zip);
              var r := CurrentWeatherResult(old(weather.cache.store.items), zip, now, reply);
              var tracked := old(registry.LocationExists(zip));
        && (!v.valid ==>
              && errorMessage == v.error.value
              && tabs == old(tabs) && weatherData == old(weatherData) && newZipCode == old(newZipCode)
              && isLoading == old(isLoading) && registry.locations == old(registry.locations)
              && registry.emitted == old(registry.emitted) && registry.received == old(registry.received)
              && registry.store.items == old(registry.store.items)
              && weather.requests == old(weather.requests)
              && weather.cache.store.items == old(weather.cache.store.items))
        && (v.valid && tracked ==>
              && errorMessage == DUPLICATE_LOCATION
              && tabs == old(tabs) && weatherData == old(weatherData) && newZipCode == old(newZipCode)
              && isLoading == old(isLoading) && registry.locations == old(registry.locations)
              && registry.emitted == old(registry.emitted) && registry.received == old(registry.received)
              && registry.store.items == old(registry.store.items)
              && weather.requests == old(weather.requests)
              && weather.cache.store.items == old(weather.cache.store.items))
        && (v.valid && !tracked && r.Fetched? ==>
              && registry.locations == old(registry.locations) + [Location(zip, r.value.cityName, now)]
              && tabs == old(tabs) + [NewTab(zip, r.value.cityName, old(tabs) == [])]
              && weatherData == old(weatherData)[zip := r.value]
              && registry.emitted == old(registry.emitted) + [registry.locations]
              && registry.received == Delivered(old(registry.received), registry.locations)
              && newZipCode == "" && !isLoading && errorMessage == "")
        && (v.valid && !tracked && r.Failed? ==>
              && errorMessage == FETCH_FAILED && !isLoading
              && tabs == old(tabs) && weatherData == old(weatherData) && newZipCode == old(newZipCode)
              && registry.locations == old(registry.locations)
              && registry.emitted == old(registry.emitted) && registry.received == old(registry.received)
              && weather.cache.store.items == AfterCurrentFetch(old(weather.cache.store.items), old(weather.cache.store.quotaExceeded),
                                                                weather.cache.config.ttl, zip, now, reply)
              && weather.requests == old(weather.requests) + CurrentRequests(old(weather.cache.store.items), zip, now)
              && (registry.store != weather.cache.store ==> registry.store.items == old(registry.store.items)))
    {
      var zip := Trim(newZipCode);
      var validation := ValidateZipCode(zip);
      if !validation.valid {
        errorMessage := validation.error.value;
        return;
      }
      if registry.LocationExists(zip) {
        errorMessage := DUPLICATE_LOCATION;
        return;
      }
      errorMessage := "";
      isLoading := true;
      var r := weather.GetCurrentWeather(zip, now, reply);
      if r.Fetched? {
        TrimIdempotent(old(newZipCode));
        ShowFetched(zip, r.value, now, reply);
      } else {
        errorMessage := FETCH_FAILED;
        isLoading := false;
      }
    }

    /** The success branch of `addLocation()` for the trimmed, untracked code `zip`. */
    method ShowFetched(zip: string, w: CurrentWeather, now: int, reply: HttpReply<CurrentWeatherResponse>)
      requires !registry.LocationExists(zip)
      modifies this, registry, registry.store, weather, weather.cache.store
      ensures registry.locations == old(registry.locations) + [Location(Trim(zip), w.cityName, now)]
      ensures registry.emitted == old(registry.emitted) + [registry.locations]
      ensures registry.received == Delivered(old(registry.received), registry.locations)
      ensures tabs == old(tabs) + [NewTab(zip, w.cityName, old(tabs) == [])]
      ensures weatherData == old(weatherData)[zip := w]
      ensures newZipCode == "" && !isLoading && errorMessage == old(errorMessage) && cacheTTL == old(cacheTTL)
    {
      var added := registry.AddLocation(zip, w.cityName, now);
      ShowTab(zip, w, now, reply);
    }

    /** The rest of that branch: the tab, the weather entry and the cleared form. */
    method ShowTab(zip: string, w: CurrentWeather, now: int, reply: HttpReply<CurrentWeatherResponse>)
      modifies this, weather, weather.cache.store
      ensures tabs == old(tabs) + [NewTab(zip, w.cityName, old(tabs) == [])]
      ensures weatherData == old(weatherData)[zip := w]
      ensures zip in old(weatherData) ==>
        weather.requests == old(weather.requests) && weather.cache.store.items == old(weather.cache.store.items)
      ensures zip !in old(weatherData) ==>
        && weather.cache.store.items == AfterCurrentFetch(old(weather.cache.store.items), old(weather.cache.store.quotaExceeded),
                                                          weather.cache.config.ttl, zip, now, reply)
        && weather.requests == old(weather.requests) + CurrentRequests(old(weather.cache.store.items), zip, now)
      ensures weather.cache.store.quotaExceeded == old(weather.cache.store.quotaExceeded)
      ensures newZipCode == "" && !isLoading && errorMessage == old(errorMessage) && cacheTTL == old(cacheTTL)
    {
      AddTabForLocation(zip, w.cityName, now, reply);
      weatherData := weatherData[zip := w];
      newZipCode := "";
      isLoading := false;
    }

    /**
     * `onTabClosed(tabId)`: forgets the code the id stands for in the
     * registry and in the weather entries, and drops the tab.
     */
    method OnTabClosed(tabId: string)
      modifies this, registry, registry.store
      ensures registry.locations == WithoutZip(old(registry.locations), ZipOfTab(tabId))
      ensures registry.emitted ==
        if HasZip(old(registry.locations), ZipOfTab(tabId)) then old(registry.emitted) + [registry.locations]
        else old(registry.emitted)
      ensures registry.received ==
        if HasZip(old(registry.locations), ZipOfTab(tabId)) then Delivered(old(registry.received), registry.locations)
        else old(registry.received)
      ensures tabs == WithoutTab(old(tabs), tabId)
      ensures weatherData == old(weatherData) - {ZipOfTab(tabId)}
      ensures newZipCode == old(newZipCode) && isLoading == old(isLoading)
      ensures errorMessage == old(errorMessage) && cacheTTL == old(cacheTTL)
    {
      var zip := ZipOfTab(tabId);
      var removed := registry.RemoveLocation(zip);
      tabs := WithoutTab(tabs, tabId);
      weatherData := weatherData - {zip};
    }
  }

  /** Closing the tab built for `zip` forgets exactly `zip`. */
  lemma ClosingLocationTabForgetsItsZip(weatherData: map<string, CurrentWeather>, locations: seq<Location>, zip: string)
    ensures WithoutZip(locations, ZipOfTab(TabId(zip))) == WithoutZip(locations, zip)
    ensures weatherData - {ZipOfTab(TabId(zip))} == weatherData - {zip}
    ensures !HasZip(WithoutZip(locations, ZipOfTab(TabId(zip))), zip)
  {
    ZipOfTabIdRoundTrip(zip);
    WithoutZipContents(locations, zip);
  }
}

=== FILE: location_service.dfy ===
/**
 * The location registry (src/app/core/services/location.service.ts): an
 * ordered list of tracked postal codes held by a replay-latest subject,
 * persisted to localStorage after every change.
 */
module Locations {
  import opened Wrappers
  import opened Models
  import opened Storage
  import opened Seqs
  import opened Text

  const STORAGE_KEY: string := "saved_locations"

  function ZipOf(l: Location): string
  {
    l.zipCode
  }

  /** The registry's uniqueness invariant: no postal code appears twice. */
  ghost predicate DistinctZips(ls: seq<Location>)
  {
    KeysDistinct(ls, ZipOf)
  }

  /** `some(loc => loc.zipCode === z)`. */
  function HasZip(ls: seq<Location>, z: string): (r: bool)
    ensures r <==> exists i | 0 <= i < |ls| :: ls[i].zipCode == z
  {
    if ls == [] then false
    else
      assert forall i | 1 <= i < |ls| :: ls[1..][i - 1] == ls[i];
      ls[0].zipCode == z || HasZip(ls[1..], z)
  }

  /** `find(loc => loc.zipCode === z)`: the first location with exactly that code. */
  function FindByZip(ls: seq<Location>, z: string): (r: Option<Location>)
    ensures r.None? <==> !HasZip(ls, z)
    ensures r.Some? ==> exists i | 0 <= i < |ls| :: ls[i] == r.value && r.value.zipCode == z && !HasZip(ls[..i], z)
  {
    if ls == [] then None
    else if ls[0].zipCode == z then
      assert ls[..0] == [];
      Some(ls[0])
    else
      var r := FindByZip(ls[1..], z);
      if r.Some? then
        var i :| 0 <= i < |ls[1..]| && ls[1..][i] == r.value && r.value.zipCode == z && !HasZip(ls[1..][..i], z);
        assert ls[i + 1] == r.value;
        var before := ls[..i + 1];
        assert before == [ls[0]] + ls[1..][..i];
        assert !HasZip(before, z) by {
          forall j | 0 <= j < |before| ensures before[j].zipCode != z {
            if j > 0 {
              assert before[j] == ls[1..][..i][j - 1];
            }
          }
        }
        r
      else
        r
  }

  /** Keeps the locations whose code differs from `z`. */
  function OtherZip(z: string): Location -> bool
  {
    (l: Location) => l.zipCode != z
  }

  /** `filter(loc => loc.zipCode !== z)`. */
  function WithoutZip(ls: seq<Location>, z: string): (r: seq<Location>)
    ensures |r| <= |ls|
    ensures forall l | l in r :: l in ls && l.zipCode != z
  {
    Filter(ls, OtherZip(z))
  }

  /** Removal drops every location with exactly the code `z` and keeps the others. */
  lemma WithoutZipContents(ls: seq<Location>, z: string)
    ensures forall l | l in WithoutZip(ls, z) :: l in ls && l.zipCode != z
    ensures forall l | l in ls && l.zipCode != z :: l in WithoutZip(ls, z)
    ensures !HasZip(WithoutZip(ls, z), z)
  {
    var r := WithoutZip(ls, z);
    forall i | 0 <= i < |r| ensures r[i].zipCode != z {
      assert r[i] in r;
    }
  }

  /** Removal shrinks the list exactly when the code is present, and otherwise changes nothing. */
  lemma RemovalShrinksIffPresent(ls: seq<Location>, z: string)
    ensures |WithoutZip(ls, z)| < |ls| <==> HasZip(ls, z)
    ensures !HasZip(ls, z) ==> WithoutZip(ls, z) == ls
  {
    FilterShrinks(ls, OtherZip(z));
    assert forall i | 0 <= i < |ls| :: !OtherZip(z)(ls[i]) <==> ls[i].zipCode == z;
  }

  /** Removal keeps the survivors in their order: it distributes over concatenation. */
  lemma RemovalKeepsOrder(a: seq<Location>, b: seq<Location>, z: string)
    ensures WithoutZip(a + b, z) == WithoutZip(a, z) + WithoutZip(b, z)
  {
    FilterAppend(a, b, OtherZip(z));
  }

  /** Removal keeps the codes distinct. */
  lemma RemovalKeepsZipsDistinct(ls: seq<Location>, z: string)
    requires DistinctZips(ls)
    ensures DistinctZips(WithoutZip(ls, z))
  {
    FilterKeepsKeysDistinct(ls, OtherZip(z), ZipOf);
  }

  /** Appending a location whose code is absent keeps the codes distinct. */
  lemma AppendKeepsZipsDistinct(ls: seq<Location>, l: Location)
    requires DistinctZips(ls) && !HasZip(ls, l.zipCode)
    ensures DistinctZips(ls + [l])
  {
    var r := ls + [l];
    forall i, j | 0 <= i < j < |r| ensures ZipOf(r[i]) != ZipOf(r[j]) {
      if j == |ls| {
        assert r[i] == ls[i];
      } else {
        assert r[i] == ls[i] && r[j] == ls[j];
      }
    }
  }

  /** The list `loadLocations` finds: a stored list, or nothing when the key is missing or unreadable. */
  function StoredLocations(items: map<string, Stored>): Option<seq<Location>>
  {
    if STORAGE_KEY in items && items[STORAGE_KEY].LocationsRecord? then Some(items[STORAGE_KEY].locations)
    else None
  }

  /** What `saveLocations` writes is what `loadLocations` reads back. */
  lemma SavedLocationsReload(items: map<string, Stored>, ls: seq<Location>)
    ensures StoredLocations(Written(items, false, STORAGE_KEY, LocationsRecord(ls))) == Some(ls)
  {
  }

  /** Every subscriber's log extended by `v`. */
  function Delivered(logs: seq<seq<seq<Location>>>, v: seq<Location>): (r: seq<seq<seq<Location>>>)
    ensures |r| == |logs|
    ensures forall i | 0 <= i < |logs| :: r[i] == logs[i] + [v]
  {
    seq(|logs|, i requires 0 <= i < |logs| => logs[i] + [v])
  }

  class LocationService {
    const store: LocalStorage
    /** The subject's current value. */
    var locations: seq<Location>
    /** Every list pushed with `next`, oldest first. */
    var emitted: seq<seq<Location>>
    /** What each subscriber has received, in subscription order. */
    var received: seq<seq<seq<Location>>>

    /** The subject starts empty; a stored list, if readable, is then pushed. */
    constructor (store: LocalStorage)
      ensures this.store == store && received == []
      ensures StoredLocations(store.items).None? ==> locations == [] && emitted == []
      ensures StoredLocations(store.items).Some? ==>
        locations == StoredLocations(store.items).value && emitted == [locations]
    {
      this.store := store;
      locations := [];
      emitted := [];
      received := [];
      new;
      LoadLocations();
    }

    /** `getLocations()`: a copy of the current list. */
    function GetLocations(): (r: seq<Location>)
      reads this
      ensures |r| == |locations| && forall i | 0 <= i < |r| :: r[i] == locations[i]
    {
      locations[..]
    }

    /** `locationExists(zip)`: compares with the trimmed code. */
    function LocationExists(zip: string): (r: bool)
      reads this
      ensures r <==> exists i | 0 <= i < |locations| :: locations[i].zipCode == Trim(zip)
    {
      HasZip(locations, Trim(zip))
    }

    /** `getLocation(zip)`: the first location with exactly (untrimmed) `zip`. */
    function GetLocation(zip: string): (r: Option<Location>)
      reads this
      ensures r.None? <==> forall i | 0 <= i < |locations| :: locations[i].zipCode != zip
      ensures r.Some? ==> r.value in locations && r.value.zipCode == zip
      ensures r.Some? ==> exists i | 0 <= i < |locations| ::
        locations[i] == r.value && forall j | 0 <= j < i :: locations[j].zipCode != zip
    {
      FindByZip(locations, zip)
    }

    /** A new subscriber is handed the current list at once. */
    method Subscribe()
      modifies this
      ensures received == old(received) + [[locations]]
      ensures locations == old(locations) && emitted == old(emitted)
    {
      received := received + [[locations]];
    }

    /** The subject's `next`: replaces the list and delivers it to every subscriber. */
    method Next(v: seq<Location>)
      modifies this
      ensures locations == v && emitted == old(emitted) + [v]
      ensures received == Delivered(old(received), v)
    {
      locations := v;
      emitted := emitted + [v];
      received := Delivered(received, v);
    }

    /**
     * `addLocation(zip, name)` at time `now`: refuses a code already tracked
     * (after trimming) without any effect; otherwise appends, publishes and persists.
     */
    method AddLocation(zip: string, name: string, now: int) returns (added: bool)
      modifies this, store
      ensures added == !old(LocationExists(zip))
      ensures added ==> locations == old(locations) + [Location(Trim(zip), name, now)]
      ensures !added ==> locations == old(locations)
      ensures emitted == if added then old(emitted) + [locations] else old(emitted)
      ensures received == if added then Delivered(old(received), locations) else old(received)
      ensures store.quotaExceeded == old(store.quotaExceeded)
      ensures store.items == if added then Written(old(store.items), old(store.quotaExceeded), STORAGE_KEY, LocationsRecord(locations))
                             else old(store.items)
      ensures old(DistinctZips(locations)) ==> DistinctZips(locations)
    {
      if LocationExists(zip) {
        return false;
      }
      var location := Location(Trim(zip), name, now);
      if DistinctZips(locations) {
        AppendKeepsZipsDistinct(locations, location);
      }
      Next(locations + [location]);
      SaveLocations();
      return true;
    }

    /**
     * `removeLocation(zip)`: drops every location whose code equals `zip`
     * untrimmed; publishes and persists only when something was removed.
     */
    method RemoveLocation(zip: string) returns (removed: bool)
      modifies this, store
      ensures removed == old(HasZip(locations, zip))
      ensures locations == WithoutZip(old(locations), zip)
      ensures !removed ==> locations == old(locations)
      ensures emitted == if removed then old(emitted) + [locations] else old(emitted)
      ensures received == if removed then Delivered(old(received), locations) else old(received)
      ensures store.quotaExceeded == old(store.quotaExceeded)
      ensures store.items == if removed then Written(old(store.items), old(store.quotaExceeded), STORAGE_KEY, LocationsRecord(locations))
                             else old(store.items)
      ensures old(DistinctZips(locations)) ==> DistinctZips(locations)
    {
      var filtered := WithoutZip(locations, zip);
      RemovalShrinksIffPresent(locations, zip);
      if DistinctZips(locations) {
        RemovalKeepsZipsDistinct(locations, zip);
      }
      removed := |filtered| < |locations|;
      if removed {
        Next(filtered);
        SaveLocations();
      }
    }

    /** `clearAll()`: always empties, publishes and persists, even when already empty. */
    method ClearAll()
      modifies this, store
      ensures locations == [] && emitted == old(emitted) + [[]]
      ensures received == Delivered(old(received), [])
      ensures store.quotaExceeded == old(store.quotaExceeded)
      ensures store.items == Written(old(store.items), old(store.quotaExceeded), STORAGE_KEY, LocationsRecord([]))
    {
      Next([]);
      SaveLocations();
    }

    /** `saveLocations()`: writes the whole list; a failed write is swallowed. */
    method SaveLocations()
      modifies store
      ensures store.quotaExceeded == old(store.quotaExceeded)
      ensures store.items == Written(old(store.items), old(store.quotaExceeded), STORAGE_KEY, LocationsRecord(locations))
    {
      var written := store.SetItem(STORAGE_KEY, LocationsRecord(locations));
    }

    /** `loadLocations()`: pushes a readable stored list; anything else changes nothing. */
    method LoadLocations()
      modifies this
      ensures StoredLocations(store.items).None? ==>
        locations == old(locations) && emitted == old(emitted) && received == old(received)
      ensures StoredLocations(store.items).Some? ==>
        locations == StoredLocations(store.items).value && emitted == old(emitted) + [locations]
        && received == Delivered(old(received), locations)
    {
      var saved := store.GetItem(STORAGE_KEY);
      if saved.Some? && saved.value.LocationsRecord? {
        Next(saved.value.locations);
      }
    }
  }
}

=== FILE: models.dfy ===
/**
 * The data shapes shared by the services and components: tracked locations,
 * the weather provider's payloads, cache records and tabs. Field names follow
 * the provider's JSON (`city_name` becomes `cityName`); numbers the core only
 * stores and shows are kept as `real`, timestamps are milliseconds as `int`.
 */
module Models {
  import opened Wrappers

  /** A tracked postal code. `addedAt` is the insertion time in milliseconds. */
  datatype Location = Location(zipCode: string, name: string, addedAt: int)

  datatype WeatherSummary = WeatherSummary(description: string, icon: string)

  /** One record of the provider's current-conditions answer. */
  datatype CurrentWeather = CurrentWeather(
    temp: real,
    weather: WeatherSummary,
    rh: real,
    sunrise: string,
    sunset: string,
    cityName: string,
    stateCode: string,
    countryCode: string,
    windSpd: real,
    clouds: real)

  /** The current-conditions envelope; `data` is `None` when the field is missing. */
  datatype CurrentWeatherResponse = CurrentWeatherResponse(data: Option<seq<CurrentWeather>>, count: real)

  /** One day of the provider's forecast. */
  datatype ForecastDay = ForecastDay(
    validDate: string,
    temp: real,
    maxTemp: real,
    minTemp: real,
    weather: WeatherSummary,
    pop: real,
    rh: real)

  /** The forecast envelope; `data` is `None` when the field is missing. */
  datatype ForecastResponse = ForecastResponse(
    data: Option<seq<ForecastDay>>,
    cityName: string,
    stateCode: string,
    countryCode: string)

  /** What the weather service keeps in the cache. */
  datatype Payload = Current(current: CurrentWeather) | Forecast(days: seq<ForecastDay>)

  /** A cache entry: the data, when it was written and when it stops being served. */
  datatype CacheItem = CacheItem(data: Payload, timestamp: int, expiresAt: int, key: string)

  /** The cache's one setting: the time-to-live in milliseconds. */
  datatype CacheConfig = CacheConfig(ttl: int)

  /** A tab of the tab strip. */
  datatype Tab = Tab(id: string, title: string, active: bool, closable: bool)
}

=== FILE: products_component.dfy ===
/**
 * The products demo page (src/app/features/products/products.component.ts):
 * opens a tab for the next catalogue product not already open, and is
 * disabled once every product has a tab.
 */
module Products {
  import opened Wrappers
  import opened Models
  import opened Seqs
  import opened Tabs

  datatype Product = Product(id: string, name: string, category: string, description: string,
                             price: string, stock: nat)

  /** The fixed catalogue, in display order. */
  const CATALOGUE: seq<Product> := [
    Product("prod1", "Laptop HP", "Computadoras", "Laptop con procesador Intel i7, 16GB RAM, 512GB SSD", "$899.99", 15),
    Product("prod2", "Mouse Logitech", "Accesorios", "Mouse inalámbrico ergonómico con 6 botones programables", "$29.99", 50),
    Product("prod3", "Teclado Mecánico", "Accesorios", "Teclado mecánico RGB con switches Cherry MX", "$149.99", 8),
    Product("prod4", "Monitor 4K", "Pantallas", "Monitor 27 pulgadas 4K UHD con HDR", "$399.99", 12),
    Product("prod5", "Webcam HD", "Accesorios", "Webcam 1080p con micrófono integrado", "$79.99", 25)
  ]

  const CATALOGUE_IDS: set<string> := {"prod1", "prod2", "prod3", "prod4", "prod5"}

  const NO_MORE_PRODUCTS: string := "No hay más productos disponibles"

  /** `map(t => t.id)`. */
  function TabIds(tabs: seq<Tab>): (ids: seq<string>)
    ensures |ids| == |tabs| && forall i | 0 <= i < |tabs| :: ids[i] == tabs[i].id
  {
    seq(|tabs|, i requires 0 <= i < |tabs| => tabs[i].id)
  }

  /** `find(p => !openIds.includes(p.id))`, as an index: the first product not open, or -1. */
  function FirstAvailable(products: seq<Product>, openIds: seq<string>): (k: int)
    ensures -1 <= k < |products|
    ensures k == -1 <==> forall i | 0 <= i < |products| :: products[i].id in openIds
    ensures k >= 0 ==> products[k].id !in openIds && forall i | 0 <= i < k :: products[i].id in openIds
  {
    if products == [] then -1
    else if products[0].id !in openIds then 0
    else
      var k := FirstAvailable(products[1..], openIds);
      assert forall i | 1 <= i < |products| :: products[1..][i - 1] == products[i];
      if k == -1 then -1 else k + 1
  }

  /** `some(p => !openIds.includes(p.id))`. */
  function AnyAvailable(products: seq<Product>, openIds: seq<string>): (r: bool)
    ensures r <==> exists i | 0 <= i < |products| :: products[i].id !in openIds
  {
    if products == [] then false
    else
      assert forall i | 1 <= i < |products| :: products[1..][i - 1] == products[i];
      products[0].id !in openIds || AnyAvailable(products[1..], openIds)
  }

  /** `find(p => p.id === id)`. */
  function FindProduct(products: seq<Product>, id: string): (r: Option<Product>)
    ensures r.None? <==> forall i | 0 <= i < |products| :: products[i].id != id
    ensures r.Some? ==> r.value in products && r.value.id == id
    ensures r.Some? ==> exists i | 0 <= i < |products| ::
      products[i] == r.value && forall j | 0 <= j < i :: products[j].id != id
  {
    if products == [] then None
    else if products[0].id == id then Some(products[0])
    else
      assert forall i | 1 <= i < |products| :: products[1..][i - 1] == products[i];
      FindProduct(products[1..], id)
  }

  /** The invariant of the open tabs: distinct ids, all from the catalogue. */
  ghost predicate OpenTabsValid(tabs: seq<Tab>)
  {
    KeysDistinct(tabs, IdOf) && forall i | 0 <= i < |tabs| :: tabs[i].id in CATALOGUE_IDS
  }

  /** No more tabs are open than there are products. */
  lemma OpenTabsBounded(tabs: seq<Tab>)
    requires OpenTabsValid(tabs)
    ensures |tabs| <= |CATALOGUE|
  {
    assert |CATALOGUE_IDS| == 5;
    DistinctKeysBound(tabs, IdOf, CATALOGUE_IDS);
  }

  /** Closing a product's tab makes that product available again. */
  lemma ClosingFreesProduct(tabs: seq<Tab>, id: string)
    requires id in CATALOGUE_IDS
    ensures AnyAvailable(CATALOGUE, TabIds(WithoutTab(tabs, id)))
  {
    var i := if id == "prod1" then 0 else if id == "prod2" then 1 else if id == "prod3" then 2
             else if id == "prod4" then 3 else 4;
    assert CATALOGUE[i].id == id;
  }

  class ProductsComponent {
    var productTabs: seq<Tab>
    var helpMessage: string
    var activeProduct: Option<Product>
    var disabled: bool

    /** The page opens with the first product's tab, active. */
    constructor ()
      ensures productTabs == [Tab("prod1", "Laptop HP", true, true)]
      ensures activeProduct == Some(CATALOGUE[0]) && !disabled && helpMessage == ""
      ensures OpenTabsValid(productTabs)
    {
      productTabs := [];
      helpMessage := "";
      activeProduct := None;
      disabled := false;
      new;
      AddProductTab();
    }

    /**
     * `addProductTab()`: appends a tab for the first catalogue product not
     * yet open, active only if it is the first tab; when none is left it
     * sets the help message and disables the button instead.
     */
    method AddProductTab()
      modifies this
      ensures var k := FirstAvailable(CATALOGUE, TabIds(old(productTabs)));
        && (k == -1 ==>
              productTabs == old(productTabs) && helpMessage == NO_MORE_PRODUCTS && disabled
              && activeProduct == old(activeProduct))
        && (k >= 0 ==>
              productTabs == old(productTabs) + [Tab(CATALOGUE[k].id, CATALOGUE[k].name, old(productTabs) == [], true)]
              && helpMessage == "" && disabled == old(disabled)
              && activeProduct == if old(productTabs) == [] then Some(CATALOGUE[k]) else old(activeProduct))
      ensures old(OpenTabsValid(productTabs)) ==> OpenTabsValid(productTabs)
    {
      var openIds := TabIds(productTabs);
      var k := FirstAvailable(CATALOGUE, openIds);
      if k == -1 {
        helpMessage := NO_MORE_PRODUCTS;
        disabled := true;
        return;
      }
      var product := CATALOGUE[k];
      var newTab := Tab(product.id, product.name, |productTabs| == 0, true);
      ghost var before := productTabs;
      productTabs := productTabs + [newTab];
      if |productTabs| == 1 {
        activeProduct := Some(product);
      }
      helpMessage := "";
      if OpenTabsValid(before) {
        forall i, j | 0 <= i < j < |productTabs| ensures IdOf(productTabs[i]) != IdOf(productTabs[j]) {
          if j == |before| {
            assert openIds[i] == before[i].id;
          } else {
            assert productTabs[i] == before[i] && productTabs[j] == before[j];
          }
        }
      }
    }

    /**
     * `onTabClosed(id)`: drops every tab with that id and re-enables adding
     * (clearing the help message) when some product is not open.
     */
    method OnTabClosed(id: string)
      modifies this
      ensures productTabs == WithoutTab(old(productTabs), id)
      ensures activeProduct == old(activeProduct)
      ensures AnyAvailable(CATALOGUE, TabIds(productTabs)) ==> !disabled && helpMessage == ""
      ensures !AnyAvailable(CATALOGUE, TabIds(productTabs)) ==>
        disabled == old(disabled) && helpMessage == old(helpMessage)
      ensures old(OpenTabsValid(productTabs)) ==> OpenTabsValid(productTabs)
    {
      ghost var before := productTabs;
      productTabs := WithoutTab(productTabs, id);
      if OpenTabsValid(before) {
        FilterKeepsKeysDistinct(before, OtherTab(id), IdOf);
        forall i | 0 <= i < |productTabs| ensures productTabs[i].id in CATALOGUE_IDS {
          assert productTabs[i] in productTabs;
          var j :| 0 <= j < |before| && before[j] == productTabs[i];
        }
      }
      if AnyAvailable(CATALOGUE, TabIds(productTabs)) {
        disabled := false;
        helpMessage := "";
      }
    }

    /** `getProductById(id)`. */
    function GetProductById(id: string): (r: Option<Product>)
      ensures r.None? <==> id !in CATALOGUE_IDS
      ensures r.Some? ==> r.value in CATALOGUE && r.value.id == id
    {
      FindProduct(CATALOGUE, id)
    }
  }
}

=== FILE: seqs.dfy ===
/**
 * The array helpers the source leans on (`filter` and the uniqueness of a key
 * inside a list), as functions on sequences with the facts the services need.
 */
module Seqs {

  /** `Array.prototype.filter`: the elements satisfying `keep`, in their order. */
  function Filter<T>(s: seq<T>, keep: T -> bool): (r: seq<T>)
    ensures |r| <= |s|
    ensures forall x | x in r :: x in s && keep(x)
    ensures forall x | x in s && keep(x) :: x in r
  {
    if s == [] then []
    else (if keep(s[0]) then [s[0]] else []) + Filter(s[1..], keep)
  }

  /** Filtering a concatenation filters each part and keeps their order. */
  lemma {:induction false} FilterAppend<T>(a: seq<T>, b: seq<T>, keep: T -> bool)
    ensures Filter(a + b, keep) == Filter(a, keep) + Filter(b, keep)
  {
    if a == [] {
      assert a + b == b;
    } else {
      assert (a + b)[1..] == a[1..] + b;
      FilterAppend(a[1..], b, keep);
    }
  }

  /** Filtering drops something exactly when some element fails `keep`. */
  lemma {:induction false} FilterShrinks<T>(s: seq<T>, keep: T -> bool)
    ensures |Filter(s, keep)| < |s| <==> exists i | 0 <= i < |s| :: !keep(s[i])
    ensures |Filter(s, keep)| == |s| ==> Filter(s, keep) == s
  {
    if s != [] {
      FilterShrinks(s[1..], keep);
      if !keep(s[0]) {
        assert !keep(s[0 as int]);
      } else {
        forall i | 1 <= i < |s| && !keep(s[i])
          ensures exists j | 0 <= j < |s[1..]| :: !keep(s[1..][j])
        {
          assert s[1..][i - 1] == s[i];
        }
        assert s == [s[0]] + s[1..];
      }
    }
  }

  /** No two elements of `s` share a key. */
  ghost predicate KeysDistinct<T, K>(s: seq<T>, key: T -> K)
  {
    forall i, j | 0 <= i < j < |s| :: key(s[i]) != key(s[j])
  }

  /** Filtering keeps keys pairwise distinct. */
  lemma {:induction false} FilterKeepsKeysDistinct<T, K>(s: seq<T>, keep: T -> bool, key: T -> K)
    requires KeysDistinct(s, key)
    ensures KeysDistinct(Filter(s, keep), key)
  {
    if s != [] {
      FilterKeepsKeysDistinct(s[1..], keep, key);
      var rest := Filter(s[1..], keep);
      if keep(s[0]) {
        var r := [s[0]] + rest;
        forall i, j | 0 <= i < j < |r| ensures key(r[i]) != key(r[j]) {
          if i == 0 {
            assert r[j] in rest;
            var k :| 0 <= k < |s[1..]| && s[1..][k] == r[j];
            assert s[k + 1] == r[j];
          } else {
            assert r[i] == rest[i - 1] && r[j] == rest[j - 1];
          }
        }
      }
    }
  }

  /** A list whose keys are distinct and drawn from `keys` is no longer than `keys`. */
  lemma {:induction false} DistinctKeysBound<T, K>(s: seq<T>, key: T -> K, keys: set<K>)
    requires KeysDistinct(s, key)
    requires forall i | 0 <= i < |s| :: key(s[i]) in keys
    ensures |s| <= |keys|
  {
    if s != [] {
      var rest := keys - {key(s[0])};
      forall i | 0 <= i < |s[1..]| ensures key(s[1..][i]) in rest {
        assert s[1..][i] == s[i + 1];
      }
      DistinctKeysBound(s[1..], key, rest);
    }
  }
}

=== FILE: storage.dfy ===
/**
 * The browser's localStorage, shared by the cache and the location registry.
 * Serialisation is abstracted: a key holds one of the records the core
 * writes, or text that does not parse as the record its reader expects.
 */
module Storage {
  import opened Wrappers
  import opened Models

  datatype Stored =
    | CacheRecord(item: CacheItem)
    | ConfigRecord(config: CacheConfig)
    | LocationsRecord(locations: seq<Location>)
    | Unparsable(text: string)

  /**
   * The key/value medium. While `quotaExceeded` holds, every `setItem`
   * throws and leaves the items as they were; reads and removals work.
   */
  class LocalStorage {
    var items: map<string, Stored>
    var quotaExceeded: bool

    constructor (items: map<string, Stored>, quotaExceeded: bool)
      ensures this.items == items && this.quotaExceeded == quotaExceeded
    {
      this.items := items;
      this.quotaExceeded := quotaExceeded;
    }

    /** `getItem`: the stored value, or `None` for a key never written. */
    function GetItem(key: string): (r: Option<Stored>)
      reads this
      ensures r.Some? <==> key in items
      ensures r.Some? ==> r.value == items[key]
    {
      if key in items then Some(items[key]) else None
    }

    /** `setItem`: `ok` is false when the write threw. */
    method SetItem(key: string, value: Stored) returns (ok: bool)
      modifies this
      ensures ok == !quotaExceeded && quotaExceeded == old(quotaExceeded)
      ensures items == if ok then old(items)[key := value] else old(items)
    {
      ok := !quotaExceeded;
      if ok {
        items := items[key := value];
      }
    }

    /** `removeItem`: deletes `key`; nothing happens if it is absent. */
    method RemoveItem(key: string)
      modifies this
      ensures items == old(items) - {key} && quotaExceeded == old(quotaExceeded)
    {
      items := items - {key};
    }
  }

  /** The items after a write that succeeds unless the quota is exceeded. */
  function Written(items: map<string, Stored>, quotaExceeded: bool, key: string, value: Stored): (r: map<string, Stored>)
    ensures quotaExceeded ==> r == items
    ensures !quotaExceeded ==> key in r && r[key] == value
    ensures forall k | k != key :: (k in r <==> k in items) && (k in r ==> r[k] == items[k])
  {
    if quotaExceeded then items else items[key := value]
  }
}

=== FILE: tabs_component.dfy ===
/**
 * The reusable tab strip (src/app/shared/components/tabs/tabs.component.ts).
 * The `tabs` input array is shared with the parent, which is why selection
 * updates its elements in place; the two outputs are kept as event logs.
 */
module Tabs {
  import opened Models
  import opened Seqs

  function IdOf(t: Tab): string
  {
    t.id
  }

  /** Keeps the tabs whose id differs from `id`. */
  function OtherTab(id: string): Tab -> bool
  {
    (t: Tab) => t.id != id
  }

  /** `filter(t => t.id !== id)`, which the parent components use to drop a closed tab. */
  function WithoutTab(tabs: seq<Tab>, id: string): (r: seq<Tab>)
    ensures forall t | t in r :: t in tabs && t.id != id
    ensures forall t | t in tabs && t.id != id :: t in r
  {
    Filter(tabs, OtherTab(id))
  }

  /** `findIndex(t => t.id === id)`: the first tab with that id, or -1. */
  function IndexOfTab(s: seq<Tab>, id: string): (k: int)
    ensures -1 <= k < |s|
    ensures k == -1 <==> forall i | 0 <= i < |s| :: s[i].id != id
    ensures k >= 0 ==> s[k].id == id && forall i | 0 <= i < k :: s[i].id != id
  {
    if s == [] then -1
    else if s[0].id == id then 0
    else
      var k := IndexOfTab(s[1..], id);
      assert forall i | 1 <= i < |s| :: s[1..][i - 1] == s[i];
      if k == -1 then -1 else k + 1
  }

  /** `find(t => t.active)`, as an index: the first active tab, or -1. */
  function FirstActive(s: seq<Tab>): (k: int)
    ensures -1 <= k < |s|
    ensures k == -1 <==> forall i | 0 <= i < |s| :: !s[i].active
    ensures k >= 0 ==> s[k].active && forall i | 0 <= i < k :: !s[i].active
  {
    if s == [] then -1
    else if s[0].active then 0
    else
      var k := FirstActive(s[1..]);
      assert forall i | 1 <= i < |s| :: s[1..][i - 1] == s[i];
      if k == -1 then -1 else k + 1
  }

  /** Tabs `a` and `b` differ at most in their `active` flags. */
  predicate SameTabsUpToActive(a: seq<Tab>, b: seq<Tab>)
  {
    |a| == |b| && forall i | 0 <= i < |a| :: a[i].(active := false) == b[i].(active := false)
  }

  /** At most one tab is active. */
  predicate AtMostOneActive(s: seq<Tab>)
  {
    forall i, j | 0 <= i < j < |s| :: !(s[i].active && s[j].active)
  }

  /**
   * The tabs after `selectTab(id)`: every tab inactive except the first one
   * whose id is `id`, if any; nothing else about a tab changes.
   */
  function Selected(s: seq<Tab>, id: string): (r: seq<Tab>)
    ensures SameTabsUpToActive(s, r)
    ensures AtMostOneActive(r)
    ensures forall i | 0 <= i < |r| :: r[i].active <==> s[i].id == id && forall j | 0 <= j < i :: s[j].id != id
  {
    var k := IndexOfTab(s, id);
    seq(|s|, i requires 0 <= i < |s| => s[i].(active := i == k))
  }

  /** Which tab `closeTab(id)` selects instead: -1 when the selection stays. */
  function NeighbourToSelect(s: seq<Tab>, id: string): (n: int)
    ensures -1 <= n < |s|
    ensures n >= 0 <==> IndexOfTab(s, id) >= 0 && s[IndexOfTab(s, id)].active && |s| > 1
    ensures n >= 0 ==> var k := IndexOfTab(s, id); (k > 0 && n == k - 1) || (k == 0 && n == 1)
  {
    var k := IndexOfTab(s, id);
    var wasActive := k >= 0 && s[k].active;
    if wasActive && |s| > 1 then (if k > 0 then k - 1 else 1) else -1
  }

  /** The id `ngOnInit` selects in a non-empty list: the first flagged tab, else the first tab. */
  function InitialTabId(s: seq<Tab>): (id: string)
    requires |s| > 0
    ensures (forall i | 0 <= i < |s| :: !s[i].active) ==> id == s[0].id
    ensures (exists i | 0 <= i < |s| :: s[i].active) ==>
      exists i | 0 <= i < |s| :: s[i].active && s[i].id == id && forall j | 0 <= j < i :: !s[j].active
  {
    var k := FirstActive(s);
    if k >= 0 then s[k].id else s[0].id
  }

  /** With distinct ids, selecting the id of tab `n` activates exactly tab `n`. */
  lemma {:induction false} SelectingAnIdActivatesItsTab(s: seq<Tab>, n: int)
    requires KeysDistinct(s, IdOf)
    requires 0 <= n < |s|
    ensures forall i | 0 <= i < |s| :: Selected(s, s[n].id)[i].active <==> i == n
  {
  }

  /**
   * Closing the active tab of a strip with distinct ids and at least two
   * tabs leaves exactly one tab selected: the one before it, or the second
   * tab when the first was closed.
   */
  lemma CloseSelectsNeighbour(s: seq<Tab>, id: string)
    requires KeysDistinct(s, IdOf)
    requires IndexOfTab(s, id) >= 0 && s[IndexOfTab(s, id)].active && |s| > 1
    ensures var n := NeighbourToSelect(s, id);
      forall i | 0 <= i < |s| :: Selected(s, s[n].id)[i].active <==> i == n
  {
    SelectingAnIdActivatesItsTab(s, NeighbourToSelect(s, id));
  }

  /** With distinct ids, `ngOnInit` activates the first flagged tab, or the first tab. */
  lemma InitActivatesFirstFlaggedTab(s: seq<Tab>)
    requires KeysDistinct(s, IdOf) && |s| > 0
    ensures var n := if FirstActive(s) >= 0 then FirstActive(s) else 0;
      forall i | 0 <= i < |s| :: Selected(s, InitialTabId(s))[i].active <==> i == n
  {
    SelectingAnIdActivatesItsTab(s, if FirstActive(s) >= 0 then FirstActive(s) else 0);
  }

  /** Tabs that differ only in their flags have the same first index for every id. */
  lemma IndexOfTabIgnoresActive(a: seq<Tab>, b: seq<Tab>, id: string)
    requires SameTabsUpToActive(a, b)
    ensures IndexOfTab(a, id) == IndexOfTab(b, id)
  {
    assert forall i | 0 <= i < |a| :: a[i].id == b[i].id by {
      forall i | 0 <= i < |a| ensures a[i].id == b[i].id {
        assert a[i].(active := false).id == b[i].(active := false).id;
      }
    }
  }

  /** Clearing every flag and then flagging the first tab with `id`, if any, gives `Selected`. */
  lemma SelectAfterClearing(s: seq<Tab>, cleared: seq<Tab>, id: string)
    requires |cleared| == |s|
    requires forall k | 0 <= k < |s| :: cleared[k] == s[k].(active := false)
    ensures IndexOfTab(cleared, id) == IndexOfTab(s, id)
    ensures IndexOfTab(s, id) == -1 ==> cleared == Selected(s, id)
    ensures IndexOfTab(s, id) >= 0 ==>
      cleared[IndexOfTab(s, id) := cleared[IndexOfTab(s, id)].(active := true)] == Selected(s, id)
  {
    IndexOfTabIgnoresActive(s, cleared, id);
  }

  class TabsComponent {
    /** The `tabs` input: the parent's array. */
    var tabs: array<Tab>
    var activeTabId: string
    /** The ids emitted on `tabSelected`, oldest first. */
    var selectedEvents: seq<string>
    /** The ids emitted on `tabClosed`, oldest first. */
    var closedEvents: seq<string>

    constructor (tabs: array<Tab>)
      ensures this.tabs == tabs && activeTabId == ""
      ensures selectedEvents == [] && closedEvents == []
    {
      this.tabs := tabs;
      activeTabId := "";
      selectedEvents := [];
      closedEvents := [];
    }

    /**
     * `selectTab(id)`: clears every flag, then flags the first tab with that
     * id, records it as active and emits it; an unknown id leaves all tabs
     * inactive, the active id as it was and emits nothing.
     */
    method SelectTab(id: string)
      modifies this, tabs
      ensures tabs == old(tabs) && closedEvents == old(closedEvents)
      ensures tabs[..] == Selected(old(tabs[..]), id)
      ensures IndexOfTab(old(tabs[..]), id) >= 0 ==>
        activeTabId == id && selectedEvents == old(selectedEvents) + [id]
      ensures IndexOfTab(old(tabs[..]), id) == -1 ==>
        activeTabId == old(activeTabId) && selectedEvents == old(selectedEvents)
    {
      var i := 0;
      while i < tabs.Length
        modifies tabs
        invariant 0 <= i <= tabs.Length
        invariant forall k | 0 <= k < i :: tabs[k] == old(tabs[k]).(active := false)
        invariant forall k | i <= k < tabs.Length :: tabs[k] == old(tabs[k])
      {
        tabs[i] := tabs[i].(active := false);
        i := i + 1;
      }
      SelectAfterClearing(old(tabs[..]), tabs[..], id);
      var k := IndexOfTab(tabs[..], id);
      if k >= 0 {
        tabs[k] := tabs[k].(active := true);
        activeTabId := id;
        selectedEvents := selectedEvents + [id];
      }
    }

    /**
     * `closeTab(id)`: when the tab was the active one and others remain, the
     * neighbour is selected; the tab itself stays (the parent removes it) and
     * `tabClosed(id)` is always emitted.
     */
    method CloseTab(id: string)
      modifies this, tabs
      ensures tabs == old(tabs)
      ensures closedEvents == old(closedEvents) + [id]
      ensures var s := old(tabs[..]); var n := NeighbourToSelect(s, id);
        && (n >= 0 ==>
              tabs[..] == Selected(s, s[n].id) && activeTabId == s[n].id
              && selectedEvents == old(selectedEvents) + [s[n].id])
        && (n == -1 ==>
              tabs[..] == s && activeTabId == old(activeTabId) && selectedEvents == old(selectedEvents))
    {
      var n := NeighbourToSelect(tabs[..], id);
      if n >= 0 {
        SelectTab(tabs[n].id);
      }
      closedEvents := closedEvents + [id];
    }

    /** `isActive(id)`. */
    function IsActive(id: string): (r: bool)
      reads this
      ensures r <==> activeTabId == id
    {
      activeTabId == id
    }

    /** `ngOnInit()`: in a non-empty strip, selects the first flagged tab, or else the first tab. */
    method NgOnInit()
      modifies this, tabs
      ensures tabs == old(tabs) && closedEvents == old(closedEvents)
      ensures tabs.Length == 0 ==>
        activeTabId == old(activeTabId) && selectedEvents == old(selectedEvents)
      ensures tabs.Length > 0 ==> var id := InitialTabId(old(tabs[..]));
        tabs[..] == Selected(old(tabs[..]), id) && activeTabId == id
        && selectedEvents == old(selectedEvents) + [id]
    {
      if tabs.Length > 0 {
        var id := InitialTabId(tabs[..]);
        assert tabs[..][IndexOfTab(tabs[..], id)].id == id;
        SelectTab(id);
      }
    }

    /** `ngOnChanges()`: adopts the first flagged tab's id, if any. */
    method NgOnChanges()
      modifies this
      ensures tabs == old(tabs) && selectedEvents == old(selectedEvents) && closedEvents == old(closedEvents)
      ensures var k := FirstActive(tabs[..]);
        activeTabId == if k >= 0 then tabs[k].id else old(activeTabId)
    {
      var k := FirstActive(tabs[..]);
      if k >= 0 {
        activeTabId := tabs[k].id;
      }
    }
  }
}

=== FILE: text.dfy ===
/**
 * The two JavaScript string operations the core depends on:
 * `String.prototype.trim` and `String.prototype.replace` with a plain-string
 * pattern (which replaces only the first occurrence).
 */
module Text {

  /**
   * The characters `trim` strips: ECMAScript WhiteSpace (TAB, VT, FF, SPACE,
   * NO-BREAK SPACE, ZERO WIDTH NO-BREAK SPACE and the Unicode space
   * separators) and LineTerminator (LF, CR, LINE and PARAGRAPH SEPARATOR).
   */
  predicate IsWhitespace(c: char)
  {
    || c == '\t' || c == '\n' || c == '\U{000B}' || c == '\U{000C}' || c == '\r'
    || c == ' ' || c == '\U{00A0}' || c == '\U{1680}'
    || ('\U{2000}' <= c <= '\U{200A}')
    || c == '\U{2028}' || c == '\U{2029}' || c == '\U{202F}' || c == '\U{205F}'
    || c == '\U{3000}' || c == '\U{FEFF}'
  }

  predicate AllWhitespace(s: string)
  {
    forall i | 0 <= i < |s| :: IsWhitespace(s[i])
  }

  /** Neither end of `s` is whitespace. */
  predicate IsTrimmed(s: string)
  {
    s == [] || (!IsWhitespace(s[0]) && !IsWhitespace(s[|s| - 1]))
  }

  /** Drops the whitespace prefix. */
  function TrimStart(s: string): (r: string)
    ensures |r| <= |s|
  {
    if s != [] && IsWhitespace(s[0]) then TrimStart(s[1..]) else s
  }

  /** Drops the whitespace suffix. */
  function TrimEnd(s: string): (r: string)
    ensures |r| <= |s|
  {
    if s != [] && IsWhitespace(s[|s| - 1]) then TrimEnd(s[..|s| - 1]) else s
  }

  /** What `TrimStart` keeps is a suffix of `s` not starting with whitespace; what it drops is whitespace. */
  lemma {:induction false} TrimStartShape(s: string)
    ensures var r := TrimStart(s);
      && r == s[|s| - |r|..]
      && AllWhitespace(s[..|s| - |r|])
      && (r == [] || !IsWhitespace(r[0]))
  {
    if s != [] && IsWhitespace(s[0]) {
      TrimStartShape(s[1..]);
      var r := TrimStart(s[1..]);
      assert s[1..][|s| - 1 - |r|..] == s[|s| - |r|..];
      assert s[..|s| - |r|] == [s[0]] + s[1..][..|s| - 1 - |r|];
    }
  }

  /** What `TrimEnd` keeps is a prefix of `s` not ending with whitespace; what it drops is whitespace. */
  lemma {:induction false} TrimEndShape(s: string)
    ensures var r := TrimEnd(s);
      && r == s[..|r|]
      && AllWhitespace(s[|r|..])
      && (r == [] || !IsWhitespace(r[|r| - 1]))
  {
    if s != [] && IsWhitespace(s[|s| - 1]) {
      var t := s[..|s| - 1];
      TrimEndShape(t);
      var r := TrimEnd(t);
      assert t[..|r|] == s[..|r|];
      assert s[|r|..] == t[|r|..] + [s[|s| - 1]];
    }
  }

  /** `s.trim()`. */
  function Trim(s: string): (r: string)
    ensures |r| <= |s|
  {
    TrimEnd(TrimStart(s))
  }

  /** The result of `trim` starts and ends with a non-whitespace character. */
  lemma TrimIsTrimmed(s: string)
    ensures IsTrimmed(Trim(s))
  {
    TrimStartShape(s);
    TrimEndShape(TrimStart(s));
  }

  lemma {:induction false} TrimStartOf(a: string, u: string)
    requires AllWhitespace(a)
    requires u == [] || !IsWhitespace(u[0])
    ensures TrimStart(a + u) == u
  {
    if a == [] {
      assert a + u == u;
    } else {
      assert (a + u)[0] == a[0];
      assert (a + u)[1..] == a[1..] + u;
      TrimStartOf(a[1..], u);
    }
  }

  lemma {:induction false} TrimEndOf(u: string, b: string)
    requires AllWhitespace(b)
    requires u == [] || !IsWhitespace(u[|u| - 1])
    ensures TrimEnd(u + b) == u
  {
    if b == [] {
      assert u + b == u;
    } else {
      var c := u + b[..|b| - 1];
      assert (u + b)[|u + b| - 1] == b[|b| - 1];
      assert (u + b)[..|u + b| - 1] == c;
      TrimEndOf(u, b[..|b| - 1]);
    }
  }

  /**
   * `trim` is characterised by its result: whatever whitespace surrounds a
   * trimmed string, trimming gives that string back.
   */
  lemma {:induction false} TrimOf(a: string, t: string, b: string)
    requires AllWhitespace(a) && AllWhitespace(b)
    requires IsTrimmed(t)
    ensures Trim(a + t + b) == t
  {
    if t == [] {
      assert a + t + b == (a + b) + [];
      TrimStartOf(a + b, []);
      assert TrimStart(a + t + b) == [];
    } else {
      assert a + t + b == a + (t + b);
      TrimStartOf(a, t + b);
      TrimEndOf(t, b);
    }
  }

  /** Trimming twice is trimming once. */
  lemma TrimIdempotent(s: string)
    ensures Trim(Trim(s)) == Trim(s)
  {
    var t := Trim(s);
    TrimIsTrimmed(s);
    assert [] + t + [] == t;
    TrimOf([], t, []);
  }

  /** `pat` occurs in `s` starting at index `i`. */
  predicate OccursAt(s: string, pat: string, i: int)
  {
    0 <= i && i + |pat| <= |s| && s[i..i + |pat|] == pat
  }

  /** Index of the first occurrence of `pat` in `s`, or -1: `s.indexOf(pat)`. */
  function IndexOf(s: string, pat: string): (r: int)
    ensures r == -1 || OccursAt(s, pat, r)
    ensures r == -1 ==> forall i :: !OccursAt(s, pat, i)
    ensures r >= 0 ==> forall i | i < r :: !OccursAt(s, pat, i)
  {
    if |s| < |pat| then -1
    else if s[..|pat|] == pat then 0
    else
      var k := IndexOf(s[1..], pat);
      assert forall i | i >= 1 :: OccursAt(s, pat, i) == OccursAt(s[1..], pat, i - 1) by {
        forall i | i >= 1 ensures OccursAt(s, pat, i) == OccursAt(s[1..], pat, i - 1) {
          if i + |pat| <= |s| {
            assert s[1..][i - 1..i - 1 + |pat|] == s[i..i + |pat|];
          }
        }
      }
      if k == -1 then -1 else k + 1
  }

  /** `s.replace(pat, "")`: removes the first occurrence of `pat`, if any. */
  function RemoveFirst(s: string, pat: string): (r: string)
    ensures IndexOf(s, pat) == -1 ==> r == s
    ensures IndexOf(s, pat) >= 0 ==>
      |r| + |pat| == |s| && s == r[..IndexOf(s, pat)] + pat + r[IndexOf(s, pat)..]
  {
    var k := IndexOf(s, pat);
    if k == -1 then s else s[..k] + s[k + |pat|..]
  }

  /** Removing the first occurrence of a prefix gives back what followed it. */
  lemma RemoveLeadingPattern(pat: string, rest: string)
    ensures RemoveFirst(pat + rest, pat) == rest
  {
    assert (pat + rest)[..|pat|] == pat;
    assert IndexOf(pat + rest, pat) == 0;
  }
}

=== FILE: validation_service.dfy ===
/**
 * US postal-code validation (src/app/core/services/validation.service.ts):
 * the input is trimmed and must then be exactly five ASCII digits.
 */
module Validation {
  import opened Wrappers
  import opened Text

  const EMPTY_ZIP_MESSAGE: string := "Por favor ingresa un código postal."
  const ZIP_FORMAT_MESSAGE: string := "El código postal debe tener 5 dígitos."

  /** `valid` and, when invalid, the message to show. */
  datatype ValidationResult = ValidationResult(valid: bool, error: Option<string>)

  /** The regular expression `^\d{5}$` (without the `u` flag `\d` is `[0-9]`). */
  predicate IsFiveDigits(s: string)
  {
    |s| == 5 && forall i | 0 <= i < |s| :: '0' <= s[i] <= '9'
  }

  /** `validateZipCode(zipCode)`. */
  function ValidateZipCode(zipCode: string): (r: ValidationResult)
    ensures r.valid <==> IsFiveDigits(Trim(zipCode))
    ensures r.valid <==> r.error.None?
    ensures Trim(zipCode) == [] ==> r.error == Some(EMPTY_ZIP_MESSAGE)
    ensures Trim(zipCode) != [] && !r.valid ==> r.error == Some(ZIP_FORMAT_MESSAGE)
  {
    var trimmed := Trim(zipCode);
    if trimmed == [] then ValidationResult(false, Some(EMPTY_ZIP_MESSAGE))
    else if !IsFiveDigits(trimmed) then ValidationResult(false, Some(ZIP_FORMAT_MESSAGE))
    else ValidationResult(true, None)
  }

  /** Surrounding whitespace never changes the verdict. */
  lemma ValidationIgnoresSurroundingWhitespace(zipCode: string)
    ensures ValidateZipCode(zipCode) == ValidateZipCode(Trim(zipCode))
  {
    TrimIdempotent(zipCode);
  }

  /** Whatever whitespace surrounds a string, it validates as that string does. */
  lemma ValidationOfPaddedInput(before: string, zipCode: string, after: string)
    requires AllWhitespace(before) && AllWhitespace(after)
    requires IsFiveDigits(zipCode)
    ensures ValidateZipCode(before + zipCode + after) == ValidationResult(true, None)
  {
    TrimOf(before, zipCode, after);
  }

  /** A valid trimmed code has no surrounding whitespace, so trimming leaves it as it is. */
  lemma ValidZipIsItsOwnTrim(zipCode: string)
    requires IsFiveDigits(zipCode)
    ensures Trim(zipCode) == zipCode
  {
    assert [] + zipCode + [] == zipCode;
    TrimOf([], zipCode, []);
  }
}

=== FILE: weather_service.dfy ===
/**
 * The weather fetch client (src/app/core/services/weather.service.ts):
 * cache-first reads of current conditions and the five-day forecast, with
 * write-through of successful answers. The provider's answer is an input.
 */
module Weather {
  import opened Wrappers
  import opened Models
  import opened Storage
  import opened Cache

  const CURRENT_PREFIX: string := "current_"
  const FORECAST_PREFIX: string := "forecast_"
  const ICON_BASE_URL: string := "https://www.weatherbit.io/static/img/icons/"
  const ICON_SUFFIX: string := ".png"
  const NO_CURRENT_DATA: string := "No se encontraron datos para esta ubicación"
  const NO_FORECAST_DATA: string := "No se encontraron datos de pronóstico"
  const COUNTRY: string := "US"
  const FORECAST_DAYS: string := "5"

  /** A failed HTTP exchange, as the transport reports it. */
  datatype HttpError = HttpError(status: int, message: string)

  /** How a request ends: a decoded body or a transport/server failure. */
  datatype HttpReply<T> = Answered(body: T) | HttpFailed(error: HttpError)

  /** The errors a fetch surfaces: no records for the location, or the transport's own error. */
  datatype FetchError = NotFound(message: string) | Transport(cause: HttpError)

  datatype FetchResult<T> = Fetched(value: T) | Failed(error: FetchError)

  datatype Endpoint = CurrentConditions | DailyForecast

  /** A request issued to the provider, with its query parameters (the access key aside). */
  datatype Request = Request(endpoint: Endpoint, postalCode: string, country: string, days: Option<string>)

  datatype CompleteWeather = CompleteWeather(current: CurrentWeather, forecast: seq<ForecastDay>)

  /** The cache key of a location's current conditions. */
  function CurrentKey(zip: string): string
  {
    CURRENT_PREFIX + zip
  }

  /** The cache key of a location's forecast. */
  function ForecastKey(zip: string): string
  {
    FORECAST_PREFIX + zip
  }

  /** Current and forecast keys never collide, and each names one location. */
  lemma CacheKeysDistinct(a: string, b: string)
    ensures CurrentKey(a) != ForecastKey(b)
    ensures EntryKey(CurrentKey(a)) != EntryKey(ForecastKey(b))
    ensures CurrentKey(a) == CurrentKey(b) ==> a == b
    ensures ForecastKey(a) == ForecastKey(b) ==> a == b
  {
    assert CurrentKey(a)[0] == 'c' && ForecastKey(b)[0] == 'f';
    EntryKeyInjective(CurrentKey(a), ForecastKey(b));
    if CurrentKey(a) == CurrentKey(b) {
      assert a == CurrentKey(a)[|CURRENT_PREFIX|..] && b == CurrentKey(b)[|CURRENT_PREFIX|..];
    }
    if ForecastKey(a) == ForecastKey(b) {
      assert a == ForecastKey(a)[|FORECAST_PREFIX|..] && b == ForecastKey(b)[|FORECAST_PREFIX|..];
    }
  }

  /** The current conditions a cache read finds for `zip` at `now`. */
  function CachedCurrent(items: map<string, Stored>, zip: string, now: int): Option<CurrentWeather>
  {
    match Lookup(items, CurrentKey(zip), now)
    case Some(Current(w)) => Some(w)
    case _ => None
  }

  /** The forecast a cache read finds for `zip` at `now`. */
  function CachedForecast(items: map<string, Stored>, zip: string, now: int): Option<seq<ForecastDay>>
  {
    match Lookup(items, ForecastKey(zip), now)
    case Some(Forecast(days)) => Some(days)
    case _ => None
  }

  /** How a current-conditions reply is turned into a result. */
  function CurrentOutcome(reply: HttpReply<CurrentWeatherResponse>): (r: FetchResult<CurrentWeather>)
    ensures reply.HttpFailed? ==> r == Failed(Transport(reply.error))
    ensures reply.Answered? ==> (r.Fetched? <==> reply.body.data.Some? && |reply.body.data.value| > 0)
    ensures r.Fetched? ==> r.value == reply.body.data.value[0]
    ensures reply.Answered? && r.Failed? ==> r.error == NotFound(NO_CURRENT_DATA)
  {
    match reply
    case HttpFailed(e) => Failed(Transport(e))
    case Answered(response) =>
      if response.data.Some? && |response.data.value| > 0 then Fetched(response.data.value[0])
      else Failed(NotFound(NO_CURRENT_DATA))
  }

  /** How a forecast reply is turned into a result. */
  function ForecastOutcome(reply: HttpReply<ForecastResponse>): (r: FetchResult<seq<ForecastDay>>)
    ensures reply.HttpFailed? ==> r == Failed(Transport(reply.error))
    ensures reply.Answered? ==> (r.Fetched? <==> reply.body.data.Some? && |reply.body.data.value| > 0)
    ensures r.Fetched? ==> r.value == reply.body.data.value && |r.value| > 0
    ensures reply.Answered? && r.Failed? ==> r.error == NotFound(NO_FORECAST_DATA)
  {
    match reply
    case HttpFailed(e) => Failed(Transport(e))
    case Answered(response) =>
      if response.data.Some? && |response.data.value| > 0 then Fetched(response.data.value)
      else Failed(NotFound(NO_FORECAST_DATA))
  }

  /** What `getCurrentWeather(zip)` yields at `now`: the cached record on a hit, else the reply's outcome. */
  function CurrentWeatherResult(items: map<string, Stored>, zip: string, now: int,
                                reply: HttpReply<CurrentWeatherResponse>): FetchResult<CurrentWeather>
  {
    var cached := CachedCurrent(items, zip, now);
    if cached.Some? then Fetched(cached.value) else CurrentOutcome(reply)
  }

  /** The requests `getCurrentWeather(zip)` issues at `now`: none on a cache hit, one on a miss. */
  function CurrentRequests(items: map<string, Stored>, zip: string, now: int): seq<Request>
  {
    if CachedCurrent(items, zip, now).Some? then [] else [Request(CurrentConditions, zip, COUNTRY, None)]
  }

  /** The storage after `getCurrentWeather(zip)` at `now`: the read, then the write-through of a fetched record. */
  function AfterCurrentFetch(items: map<string, Stored>, quotaExceeded: bool, ttl: int, zip: string, now: int,
                             reply: HttpReply<CurrentWeatherResponse>): map<string, Stored>
  {
    var afterRead := AfterLookup(items, CurrentKey(zip), now);
    var r := CurrentOutcome(reply);
    if CachedCurrent(items, zip, now).None? && r.Fetched?
    then AfterSet(afterRead, quotaExceeded, CurrentKey(zip), Current(r.value), now, ttl)
    else afterRead
  }

  /** What `getForecast(zip)` yields at `now`: the cached forecast on a hit, else the reply's outcome. */
  function ForecastResult(items: map<string, Stored>, zip: string, now: int,
                          reply: HttpReply<ForecastResponse>): FetchResult<seq<ForecastDay>>
  {
    var cached := CachedForecast(items, zip, now);
    if cached.Some? then Fetched(cached.value) else ForecastOutcome(reply)
  }

  /** The storage after `getForecast(zip)` at `now`. */
  function AfterForecastFetch(items: map<string, Stored>, quotaExceeded: bool, ttl: int, zip: string, now: int,
                              reply: HttpReply<ForecastResponse>): map<string, Stored>
  {
    var afterRead := AfterLookup(items, ForecastKey(zip), now);
    var r := ForecastOutcome(reply);
    if CachedForecast(items, zip, now).None? && r.Fetched?
    then AfterSet(afterRead, quotaExceeded, ForecastKey(zip), Forecast(r.value), now, ttl)
    else afterRead
  }

  /**
   * How `Promise.all` combines the two fetches: both records when both
   * succeed, otherwise a failure (the current-conditions one first).
   */
  function Joined(current: FetchResult<CurrentWeather>, forecast: FetchResult<seq<ForecastDay>>): (r: FetchResult<CompleteWeather>)
    ensures r.Fetched? <==> current.Fetched? && forecast.Fetched?
    ensures r.Fetched? ==> r.value == CompleteWeather(current.value, forecast.value)
    ensures r.Failed? ==> r.error == (if current.Failed? then current.error else forecast.error)
  {
    if current.Failed? then Failed(current.error)
    else if forecast.Failed? then Failed(forecast.error)
    else Fetched(CompleteWeather(current.value, forecast.value))
  }

  /** Fetching the current conditions never changes what the forecast read of any location finds. */
  lemma CurrentFetchKeepsForecasts(items: map<string, Stored>, quotaExceeded: bool, ttl: int, zip: string, now: int,
                                   reply: HttpReply<CurrentWeatherResponse>, other: string, later: int)
    ensures CachedForecast(AfterCurrentFetch(items, quotaExceeded, ttl, zip, now, reply), other, later)
         == CachedForecast(AfterLookup(items, CurrentKey(zip), now), other, later)
    ensures CachedForecast(AfterCurrentFetch(items, quotaExceeded, ttl, zip, now, reply), other, later)
         == CachedForecast(items, other, later)
  {
    CacheKeysDistinct(zip, other);
    LookupTouchesOnlyItsKey(items, CurrentKey(zip), now, EntryKey(ForecastKey(other)));
    var r := CurrentOutcome(reply);
    if CachedCurrent(items, zip, now).None? && r.Fetched? {
      WriteLeavesOtherEntries(AfterLookup(items, CurrentKey(zip), now), quotaExceeded, CurrentKey(zip),
                              Current(r.value), now, ttl, ForecastKey(other), later);
    }
  }

  /**
   * Fetching the current conditions of `zip` leaves what a read at the same
   * instant finds for every other code, and for `zip` itself when the fetch failed.
   */
  lemma CurrentFetchKeepsOtherCurrent(items: map<string, Stored>, quotaExceeded: bool, ttl: int, zip: string, now: int,
                                      reply: HttpReply<CurrentWeatherResponse>, other: string)
    requires other != zip || CurrentWeatherResult(items, zip, now, reply).Failed?
    ensures CachedCurrent(AfterCurrentFetch(items, quotaExceeded, ttl, zip, now, reply), other, now)
         == CachedCurrent(items, other, now)
  {
    CacheKeysDistinct(zip, other);
    ReadsAtOneInstantCommute(items, CurrentKey(zip), CurrentKey(other), now);
    var r := CurrentOutcome(reply);
    if CachedCurrent(items, zip, now).None? && r.Fetched? {
      EntryKeyInjective(CurrentKey(other), CurrentKey(zip));
      WriteLeavesOtherEntries(AfterLookup(items, CurrentKey(zip), now), quotaExceeded, CurrentKey(zip),
                              Current(r.value), now, ttl, CurrentKey(other), now);
    }
  }

  /** Reading one location's current conditions leaves its cached forecast as it was. */
  lemma CurrentReadKeepsForecast(items: map<string, Stored>, zip: string, now: int, later: int)
    ensures CachedForecast(AfterLookup(items, CurrentKey(zip), now), zip, later) == CachedForecast(items, zip, later)
  {
    CacheKeysDistinct(zip, zip);
    LookupTouchesOnlyItsKey(items, CurrentKey(zip), now, EntryKey(ForecastKey(zip)));
  }

  /**
   * After a successful fetch has been written through (a write that did not
   * fail, a non-negative TTL), a read at the same instant is a cache hit
   * returning what was fetched.
   */
  lemma FetchedCurrentIsServedFromCache(items: map<string, Stored>, zip: string, w: CurrentWeather, now: int, ttl: int)
    requires ttl >= 0
    ensures CachedCurrent(AfterSet(items, false, CurrentKey(zip), Current(w), now, ttl), zip, now) == Some(w)
  {
    SetThenGetRoundTrip(items, CurrentKey(zip), Current(w), now, ttl);
  }

  /** The forecast counterpart of `FetchedCurrentIsServedFromCache`. */
  lemma FetchedForecastIsServedFromCache(items: map<string, Stored>, zip: string, days: seq<ForecastDay>, now: int, ttl: int)
    requires ttl >= 0
    ensures CachedForecast(AfterSet(items, false, ForecastKey(zip), Forecast(days), now, ttl), zip, now) == Some(days)
  {
    SetThenGetRoundTrip(items, ForecastKey(zip), Forecast(days), now, ttl);
  }

  /** `getWeatherIconUrl(iconCode)`: the provider's icon address; the code can be read back from it. */
  function GetWeatherIconUrl(iconCode: string): (url: string)
    ensures |url| == |ICON_BASE_URL| + |iconCode| + |ICON_SUFFIX|
    ensures url[..|ICON_BASE_URL|] == ICON_BASE_URL
    ensures url[|ICON_BASE_URL|..|ICON_BASE_URL| + |iconCode|] == iconCode
    ensures url[|url| - |ICON_SUFFIX|..] == ICON_SUFFIX
  {
    ICON_BASE_URL + iconCode + ICON_SUFFIX
  }

  /** Different icon codes give different addresses. */
  lemma IconUrlInjective(a: string, b: string)
    ensures GetWeatherIconUrl(a) == GetWeatherIconUrl(b) ==> a == b
  {
    if GetWeatherIconUrl(a) == GetWeatherIconUrl(b) {
      var u := GetWeatherIconUrl(a);
      assert |a| == |b|;
      assert a == u[|ICON_BASE_URL|..|ICON_BASE_URL| + |a|];
    }
  }

  class WeatherService {
    const cache: CacheService
    /** The requests issued to the provider, oldest first. */
    var requests: seq<Request>

    constructor (cache: CacheService)
      ensures this.cache == cache && requests == []
    {
      this.cache := cache;
      requests := [];
    }

    /**
     * `getCurrentWeather(zip)` at time `now`, where `reply` is what the
     * provider answers if asked. A hit returns the cached record and issues
     * no request; a miss issues one request, caches and returns the first
     * record of a non-empty answer, and caches nothing on any failure.
     */
    method GetCurrentWeather(zip: string, now: int, reply: HttpReply<CurrentWeatherResponse>)
      returns (r: FetchResult<CurrentWeather>)
      modifies this, cache.store
      ensures cache.store.quotaExceeded == old(cache.store.quotaExceeded)
      ensures r == CurrentWeatherResult(old(cache.store.items), zip, now, reply)
      ensures cache.store.items == AfterCurrentFetch(old(cache.store.items), old(cache.store.quotaExceeded), cache.config.ttl, zip, now, reply)
      ensures requests == old(requests) + CurrentRequests(old(cache.store.items), zip, now)
      ensures var cached := CachedCurrent(old(cache.store.items), zip, now);
              var afterRead := AfterLookup(old(cache.store.items), CurrentKey(zip), now);
        && (cached.Some? ==>
              r == Fetched(cached.value) && requests == old(requests) && cache.store.items == afterRead)
        && (cached.None? ==>
              && r == CurrentOutcome(reply)
              && requests == old(requests) + [Request(CurrentConditions, zip, COUNTRY, None)]
              && cache.store.items == if r.Fetched?
                                      then AfterSet(afterRead, old(cache.store.quotaExceeded), CurrentKey(zip), Current(r.value), now, cache.config.ttl)
                                      else afterRead)
    {
      var key := CurrentKey(zip);
      var cached := cache.Get(key, now);
      if cached.Some? && cached.value.Current? {
        return Fetched(cached.value.current);
      }
      requests := requests + [Request(CurrentConditions, zip, COUNTRY, None)];
      r := CurrentOutcome(reply);
      if r.Fetched? {
        cache.Set(key, Current(r.value), now);
      }
    }

    /**
     * `getForecast(zip)` at time `now`: as `GetCurrentWeather`, for the
     * five-day forecast; a non-empty answer is cached and returned whole.
     */
    method GetForecast(zip: string, now: int, reply: HttpReply<ForecastResponse>)
      returns (r: FetchResult<seq<ForecastDay>>)
      modifies this, cache.store
      ensures cache.store.quotaExceeded == old(cache.store.quotaExceeded)
      ensures r == ForecastResult(old(cache.store.items), zip, now, reply)
      ensures cache.store.items == AfterForecastFetch(old(cache.store.items), old(cache.store.quotaExceeded), cache.config.ttl, zip, now, reply)
      ensures var cached := CachedForecast(old(cache.store.items), zip, now);
              var afterRead := AfterLookup(old(cache.store.items), ForecastKey(zip), now);
        && (cached.Some? ==>
              r == Fetched(cached.value) && requests == old(requests) && cache.store.items == afterRead)
        && (cached.None? ==>
              && r == ForecastOutcome(reply)
              && requests == old(requests) + [Request(DailyForecast, zip, COUNTRY, Some(FORECAST_DAYS))]
              && cache.store.items == if r.Fetched?
                                      then AfterSet(afterRead, old(cache.store.quotaExceeded), ForecastKey(zip), Forecast(r.value), now, cache.config.ttl)
                                      else afterRead)
    {
      var key := ForecastKey(zip);
      var cached := cache.Get(key, now);
      if cached.Some? && cached.value.Forecast? {
        return Fetched(cached.value.days);
      }
      requests := requests + [Request(DailyForecast, zip, COUNTRY, Some(FORECAST_DAYS))];
      r := ForecastOutcome(reply);
      if r.Fetched? {
        cache.Set(key, Forecast(r.value), now);
      }
    }

    /**
     * `getCompleteWeather(zip)` at `now`: when both records are cached they
     * are returned with no request; otherwise the call falls through to
     * `getCurrentWeather` and `getForecast` (answered by `currentReply` and
     * `forecastReply`), each of which re-reads the cache and fetches only on
     * a miss, and the two outcomes are joined.
     */
    method GetCompleteWeather(zip: string, now: int, currentReply: HttpReply<CurrentWeatherResponse>,
                              forecastReply: HttpReply<ForecastResponse>)
      returns (r: FetchResult<CompleteWeather>)
      modifies this, cache.store
      ensures cache.store.quotaExceeded == old(cache.store.quotaExceeded)
      ensures var items := old(cache.store.items);
              var current := CachedCurrent(items, zip, now);
              var forecast := CachedForecast(items, zip, now);
              var afterReads := AfterLookup(AfterLookup(items, CurrentKey(zip), now), ForecastKey(zip), now);
        && r == Joined(CurrentWeatherResult(items, zip, now, currentReply), ForecastResult(items, zip, now, forecastReply))
        && (current.Some? && forecast.Some? ==>
              r == Fetched(CompleteWeather(current.value, forecast.value))
              && requests == old(requests) && cache.store.items == afterReads)
        && (!(current.Some? && forecast.Some?) ==>
              && requests == old(requests)
                 + (if current.None? then [Request(CurrentConditions, zip, COUNTRY, None)] else [])
                 + (if forecast.None? then [Request(DailyForecast, zip, COUNTRY, Some(FORECAST_DAYS))] else [])
              && cache.store.items ==
                 AfterForecastFetch(AfterCurrentFetch(afterReads, old(cache.store.quotaExceeded), cache.config.ttl, zip, now, currentReply),
                                    old(cache.store.quotaExceeded), cache.config.ttl, zip, now, forecastReply))
    {
      ghost var items := cache.store.items;
      CurrentReadKeepsForecast(items, zip, now, now);
      var currentCached := cache.Get(CurrentKey(zip), now);
      ghost var afterCurrentRead := cache.store.items;
      var forecastCached := cache.Get(ForecastKey(zip), now);
      ghost var afterReads := cache.store.items;
      ReadsAtOneInstantCommute(afterCurrentRead, ForecastKey(zip), CurrentKey(zip), now);
      ReadsAtOneInstantCommute(items, CurrentKey(zip), CurrentKey(zip), now);
      ReadsAtOneInstantCommute(afterCurrentRead, ForecastKey(zip), ForecastKey(zip), now);
      if currentCached.Some? && currentCached.value.Current? && forecastCached.Some? && forecastCached.value.Forecast? {
        return Fetched(CompleteWeather(currentCached.value.current, forecastCached.value.days));
      }
      var current := GetCurrentWeather(zip, now, currentReply);
      CurrentFetchKeepsForecasts(afterReads, cache.store.quotaExceeded, cache.config.ttl, zip, now, currentReply, zip, now);
      ReadsAtOneInstantCommute(afterReads, CurrentKey(zip), ForecastKey(zip), now);
      var forecast := GetForecast(zip, now, forecastReply);
      r := Joined(current, forecast);
    }
  }
}

=== FILE: wrappers.dfy ===
/** The optional value used wherever the source returns `null` or `undefined`. */
module Wrappers {

  datatype Option<+T> = None | Some(value: T)
}
